=== FILE: README.md ===
# DateStamp core in Dafny

DateStamp burns a date-and-time stamp into photos. This project models the
core of `src/DateStamp.py`:

- **Name recognizer.** `get_datetime_from_filename` has four recognizers, tried
  in order on the name without its extension:
  - `IMG_YYYYMMDD_HHMMSS`;
  - `YYYYMMDD_HHMMSS`;
  - `camera<N>_D-M-YYYY_HhMmSs`;
  - `D-M-YYYY_HhMmSs` anywhere in the name.
- **EXIF parse.** `get_datetime_from_exif`, once the tag text has been read.
  The tag is parsed with `datetime.strptime(…, '%Y:%m:%d %H:%M:%S')`.
- **strptime.** `datetime.strptime` with the fixed formats `%Y:%m:%d %H:%M:%S`
  and `%Y-%m-%d %H:%M:%S`. This follows CPython's regular-expression scanner:
  - `%m`, `%d`, `%H`, `%M` and `%S` accept one or two digits;
  - the space in the format matches any run of whitespace;
  - the `datetime` constructor checks the calendar.
- **Resolution chain.** Each file's timestamp comes from the first source
  that gives one. The order depends on the entry point:
  - `process_images` (flat): EXIF, then the file name, then the creation time;
  - `process_images_with_structure` (tree): the file name, then EXIF, then
    the creation time.
- **Watermark geometry** in `add_datetime_watermark`:
  - the stamp text `%Y-%m-%d %H:%M:%S`;
  - the text origin for each position name;
  - the background frame, padded by 10 and pushed down by `font_size // 4`;
  - the choice of image reader;
  - the choice of encoder (JPEG at quality 95 for `.jpg` and `.jpeg`).
- **Batch loops.** The supported-suffix filter, the destination path (mirrored
  in tree mode, `watermarked_` prefix or overwrite in flat mode), and the
  processed/error counters. This is a loop (`TreeProcessing.Walk`) proved equal
  to a fold (`TreeProcessing.Tally`).

Modules:

| File | Module | Contents |
|---|---|---|
| `wrappers.dfy` | `Wrappers` | `Option` and its `OrElse` |
| `pystr.dfy` | `PyStr` | The Python string operations used: slicing, `zfill(2)`, ASCII `lower`, `startswith`/`endswith`, `splitext`, `join`, digit runs |
| `calendar.dfy` | `Calendar` | `DateTime`, its validity (the `datetime` constructor's checks) and the fixed-width texts |
| `strptime.dfy` | `Strptime` | The two `strptime` formats and their round trips |
| `filename_dates.dfy` | `FilenameDates` | The four name recognizers and their properties |
| `filename_examples.dfy` | `FilenameExamples` | Concrete names from the source's comments and edge cases |
| `resolution.dfy` | `Resolution` | The EXIF parse and the resolution chains of both modes |
| `resolution_examples.dfy` | `ResolutionExamples` | A concrete EXIF tag and a file the two modes date differently |
| `layout.dfy` | `Layout` | Position names, text origin, frame |
| `encoding.dfy` | `Encoding` | Supported suffixes, reader choice, encoder choice |
| `tree.dfy` | `TreeProcessing` | Per-file outcome, destination paths, the counting loop |
| `tree_examples.dfy` | `TreeExamples` | A six-file walk and its counts |

Inputs the model takes as parameters:
- the EXIF tag text, or its absence;
- the creation time, or its absence;
- whether the source root exists;
- the order of the directory walk;
- the measured text width and height;
- whether rendering and saving succeeded.

### Behaviour worth noting

- **Four recognizers.** The code has exactly four; there is no month-name or
  other format.
- **The first applicable recognizer decides.** A recognizer whose guard holds
  decides the result, even when `strptime` fails. The `ValueError` is caught
  by the outer `try` and gives `None`. Later recognizers are not tried:
  - "IMG_20231301_123456_…" with a camera pattern after it gives `None`
    (`FilenameExamples.ImgDecidesOverCamera`);
  - "20230101_253000.jpg" gives `None` (`FilenameExamples.CompactDecidesExample`).
- **No skip counter.** A supported file with no date from any source is
  counted as an error. Unsupported files are ignored silently.
- **Seven position names.** The code tests seven names. Every other name,
  including an unknown one, takes the final `else` and means bottom-right.
- **The name wins only in tree mode.** The flat loop tries EXIF first
  (`Resolution.ModesDisagree`, `ResolutionExamples.ModesDisagreeExample`).
- **Short `IMG_` names.** The `IMG_` guard only asks for 15 characters, while
  the slices read up to character 18:
  - base names of 15–17 characters give a short time field, which fails to
    parse, so the result is `None`;
  - an 18-character name leaves a one-digit seconds field, which `%S`
    accepts: "IMG_20230101_12345" is 12:34:05 (`FilenameExamples.Img18Example`).
- **`.tif` files go through OpenCV.** `.tif` is a supported suffix, but it is
  not in the list of suffixes opened with PIL, so it is read with OpenCV
  (`Encoding.SupportedReader`).

## Model

| member | source | states |
|---|---|---|
| PyStr.Slice | src/DateStamp.py:31-33 | Python slicing clamps to the string: the length is the clamped range, and each character comes from the same offset |
| PyStr.Zfill2 | src/DateStamp.py:51-52 | `zfill(2)` keeps strings of length 2 or more and left-pads shorter ones with '0' to length 2, ending in the original |
| PyStr.LowerIdempotent | src/DateStamp.py:201 | Lower-casing twice is the same as once |
| PyStr.LowerConcat | src/DateStamp.py:224 | Lower-casing distributes over concatenation |
| PyStr.StripExtension | src/DateStamp.py:27 | `splitext(name)[0]` is a prefix of the name, and when it is shorter, the character after it is the extension's dot |
| PyStr.Join | src/DateStamp.py:225 | `os.path.join(a, b)` always ends with `b` |
| PyStr.DigitsRoundTrip | src/DateStamp.py:152 | Zero-padded decimal digits of width w read back as the number, for every number below 10^w |
| Calendar.DaysInMonth | src/DateStamp.py:34 | Month lengths checked by the datetime constructor: 28–31 days, and February has 29 exactly in leap years |
| Calendar.StampText | src/DateStamp.py:152 | `strftime('%Y-%m-%d %H:%M:%S')` is 19 characters, with '-', '-', ' ', ':', ':' at positions 4, 7, 10, 13, 16 and digits everywhere else |
| Strptime.ScanSeconds | src/DateStamp.py:18 | `%S` at the end of the text accepts exactly one digit, or two digits from 00 to 61 |
| Strptime.SkipSpaces | src/DateStamp.py:18 | A space in the format consumes the whole leading run of whitespace and nothing else |
| Strptime.ScanField | src/DateStamp.py:18 | A match consumes one or two characters: two only through the field's two-character alternative, and then the value is that token's `int()`; one only through the one-character alternative, and then the value is that digit. The value is within the field's bounds, and the rest of the text starts with the delimiter |
| Strptime.ParseDateTime | src/DateStamp.py:18 | Every parsed datetime passes the constructor's checks; its year is the first four characters, which are digits, followed by the separator; the text ends in a digit |
| Strptime.AfterYear | src/DateStamp.py:18 | After the year, a result is valid, keeps that year, and the text ends in a digit |
| Strptime.AfterMonth | src/DateStamp.py:18 | After the month, a result is valid, keeps year and month, and the text ends in a digit |
| Strptime.AfterDay | src/DateStamp.py:18 | After the day, a result is valid, keeps year, month and day, and the text ends in a digit |
| Strptime.AfterHour | src/DateStamp.py:18 | After the hour, a result is valid, keeps the four fields read so far, and the text ends in a digit |
| Strptime.ParseFixedWidth | src/DateStamp.py:34 | A fixed-width text with 4-digit year and 2-digit fields (seconds 1 or 2 digits) parses to the fields' values when they form a valid datetime, and to None otherwise |
| Strptime.ParseOneDigitFields | src/DateStamp.py:18 | A text whose month, day, hour, minute and second are single digits (month and day 1-9) parses to those values when they form a valid datetime, and to None otherwise |
| Strptime.CanonicalRoundTrip | src/DateStamp.py:18 | Every valid datetime, printed in the fixed EXIF layout, parses back to itself |
| Strptime.StampTextRoundTrip | src/DateStamp.py:152 | Every valid datetime's stamp text parses back to itself under `%Y-%m-%d %H:%M:%S` |
| FilenameDates.ImgParse | src/DateStamp.py:30-34 | The IMG recognizer only returns valid datetimes |
| FilenameDates.ImgGuardDecides | src/DateStamp.py:30-34 | When the `IMG_` guard (prefix `IMG_`, at least 15 characters) holds, its parse is the answer, even None |
| FilenameDates.CompactGuardDecides | src/DateStamp.py:37-41 | When the `IMG_` guard fails and the compact guard (at least 15 characters, eight digits, `_` at index 8) holds, its parse is the answer, even None |
| FilenameDates.CompactParse | src/DateStamp.py:37-41 | The compact recognizer only returns valid datetimes |
| FilenameDates.DigitRun12 | src/DateStamp.py:58 | `(\d{1,2})` then a delimiter: a hit covers one or two digits followed by that delimiter |
| FilenameDates.MatchClock | src/DateStamp.py:58 | `(\d{1,2})h(\d{1,2})m(\d{1,2})s` captures three runs of one or two digits |
| FilenameDates.MatchDayFirst | src/DateStamp.py:58-59 | The day-first pattern only captures well-formed groups: 1–2 digit day, month, hour, minute and second, and a 4-digit year |
| FilenameDates.MatchCamera | src/DateStamp.py:47-48 | The camera pattern only captures well-formed groups |
| FilenameDates.DigitRunEnd | src/DateStamp.py:47 | Greedy `\d+` stops at the first non-digit or at the end |
| FilenameDates.Search | src/DateStamp.py:48 | `re.search` returns the leftmost position where the pattern matches: no earlier position matches, and None means no position matches |
| FilenameDates.DayFirstParse | src/DateStamp.py:50-54 | The camera and day-first recognizers only return valid datetimes |
| FilenameDates.FromFilename | src/DateStamp.py:23-70 | `get_datetime_from_filename` returns None or a valid datetime, never an error |
| FilenameDates.FromBaseName | src/DateStamp.py:29-70 | The recognizers in order only return valid datetimes |
| FilenameDates.StripPlainExtension | src/DateStamp.py:27 | A dot-free stem with a plain extension loses exactly the extension |
| FilenameDates.SlicedStampOfDigits | src/DateStamp.py:31-33 | Slicing the 8 date digits and 6 time digits rebuilds the canonical EXIF-layout text |
| FilenameDates.ImgNameRoundTrip | src/DateStamp.py:29-34 | Every valid datetime written as `IMG_YYYYMMDD_HHMMSS` plus an extension is recognized as that datetime |
| FilenameDates.CompactNameRoundTrip | src/DateStamp.py:36-41 | Every valid datetime written as `YYYYMMDD_HHMMSS` plus an extension is recognized as that datetime |
| FilenameDates.ZfillDigits | src/DateStamp.py:62-63 | Zero-padding a 1–2 digit group keeps its numeric value and gives two digits |
| FilenameDates.DayFirstDenotes | src/DateStamp.py:61-65 | The padded, reordered groups parse to the datetime they denote exactly when that datetime is valid, and to None otherwise |
| FilenameDates.DigitRunAt | src/DateStamp.py:58 | A 1–2 digit run followed by its delimiter is matched exactly up to the delimiter |
| FilenameDates.MatchClockText | src/DateStamp.py:58 | The text `H h M m S s` is matched with exactly its three groups |
| FilenameDates.MatchDayFirstText | src/DateStamp.py:58-59 | The day-first text of any well-formed groups is matched at its start with exactly those groups, whatever follows |
| FilenameDates.DayFirstTextPlain | src/DateStamp.py:58 | Day-first text has no dot, slash or 'c', starts with a digit, and has a dash after the day |
| FilenameDates.CameraDecides | src/DateStamp.py:46-54 | When neither compact guard holds and the camera pattern is found, its groups decide the result |
| FilenameDates.DayFirstDecides | src/DateStamp.py:57-65 | When the camera pattern is absent and the day-first pattern is found, its groups decide the result |
| FilenameDates.FirstGuardsFail | src/DateStamp.py:30-37 | A name starting with neither 'I' nor a digit skips both compact recognizers |
| FilenameDates.SearchFindsFirst | src/DateStamp.py:48 | If position j matches and no earlier one does, the search reports j |
| FilenameDates.CameraMatchesAtStart | src/DateStamp.py:47 | `camera<N>_` followed by day-first text matches at position 0 with its groups |
| FilenameDates.CameraNameDate | src/DateStamp.py:23-70 | `camera<N>_D-M-YYYY_HhMmSs…` plus an extension gives the denoted datetime when it is valid, and None otherwise |
| FilenameDates.NoCameraAnywhere | src/DateStamp.py:48 | A name without 'c' has no camera match |
| FilenameDates.PlainPrefixGuards | src/DateStamp.py:30-37 | A digit-free prefix that is not `IMG_` keeps both compact recognizers off |
| FilenameDates.PlainDayFirstNameDate | src/DateStamp.py:23-70 | Day-first text after a digit-free prefix that does not start with `IMG_`, in a name where the camera pattern matches nowhere and neither prefix nor tail holds '.' or '/', gives the denoted datetime when it is valid, and None otherwise |
| FilenameDates.ImgShortNameFails | src/DateStamp.py:30-34 | An `IMG_` base name of 15 to 17 characters passes the guard but gives None |
| FilenameExamples.ImgExample | src/DateStamp.py:29 | "IMG_20230101_123456.jpg" gives 2023-01-01 12:34:56 |
| FilenameExamples.CameraExample | src/DateStamp.py:46 | "camera13_01-01-2024_22h16m08s163ms.jpg" gives 2024-01-01 22:16:08 |
| FilenameExamples.Camera7Example | src/DateStamp.py:47-54 | "camera7_05-03-2024_09h15m30s120ms.jpg" gives 2024-03-05 09:15:30: a one-digit camera number, day before month |
| FilenameExamples.PaddingExample | src/DateStamp.py:50-54 | "camera1_1-2-2024_8h5m7s.png" has one-digit groups; zero-padded, they give 2024-02-01 08:05:07 |
| FilenameExamples.GenericExample | src/DateStamp.py:57 | A name with a text prefix and a day-first date, like the source's example, gives 2024-12-01 08:36:46 |
| FilenameExamples.ImgParts | src/DateStamp.py:30-34 | Every `IMG_` name with an 8-character date part reads as the parse of the date part and the first six characters of the time part, in the EXIF layout |
| FilenameExamples.ImgShortExample | src/DateStamp.py:30-34 | "IMG_20230101_1234.jpg" gives None |
| FilenameExamples.Img18Example | src/DateStamp.py:30-34 | "IMG_20230101_12345.jpg" gives 2023-01-01 12:34:05 |
| FilenameExamples.Month13Name | src/DateStamp.py:30-34 | Any `IMG_20231301_123456…` name gives None: month 13 is rejected |
| FilenameExamples.ImgDecidesOverCamera | src/DateStamp.py:29-54 | The same camera text gives its date alone, but None behind an `IMG_` prefix with a bad month |
| FilenameExamples.CompactDecidesExample | src/DateStamp.py:36-41 | "20230101_253000.jpg" gives None: hour 25 is rejected |
| Resolution.ExifDate | src/DateStamp.py:11-21 | No tag gives None; a result is valid, and its year is the tag's first four characters, followed by ':' |
| Resolution.ExifRoundTrip | src/DateStamp.py:18 | A tag in the EXIF layout reads back as the datetime it prints |
| Resolution.ExifOneDigitFields | src/DateStamp.py:11-21 | An EXIF tag without zero padding, such as "2024:5:6 7:8:9", reads as the datetime of its field values when valid, and None otherwise |
| Resolution.ExifRejectsStampText | src/DateStamp.py:18 | A tag in the dash layout is never accepted |
| Resolution.FirstSomeIsFirst | src/DateStamp.py:236-245 | The reference chain returns candidate i when all earlier candidates are empty |
| Resolution.FirstSomeNone | src/DateStamp.py:236-245 | The reference chain is empty exactly when every candidate is |
| Resolution.CandidateOrders | src/DateStamp.py:236-245 | The two modes try the same three sources: the flat order is the tree order with the first two swapped, the creation time last in both, and the two are equal as multisets |
| Resolution.Resolve | src/DateStamp.py:302-320 | The resolved date is always one of the three sources; a creation time guarantees a date; in tree mode a dated name wins, in flat mode a parsable EXIF tag wins |
| Resolution.ResolveIsFirstSome | src/DateStamp.py:236-245 | In both modes, the chain as written equals the first non-empty candidate in that mode's order |
| Resolution.ResolveNone | src/DateStamp.py:302-320 | No date exactly when name, EXIF and creation time all give none |
| Resolution.ResolveValid | src/DateStamp.py:236-245 | A resolved date is valid whenever the creation time is |
| Resolution.ModesDisagree | src/DateStamp.py:236-320 | The modes differ exactly when name and EXIF both give dates that differ; then flat takes EXIF and tree takes the name |
| Resolution.CreationTimeFallback | src/DateStamp.py:243-245 | With no dated name and no tag, both modes use the creation time |
| ResolutionExamples.ExifExampleParse | src/DateStamp.py:18 | The tag "2024:05:06 07:08:09" gives 2024-05-06 07:08:09 |
| ResolutionExamples.ExifUnpaddedExample | src/DateStamp.py:18 | The tag "2024:5:6 7:8:9" gives 2024-05-06 07:08:09, like its padded form |
| ResolutionExamples.ModesDisagreeExample | src/DateStamp.py:236-310 | "IMG_20230101_123456.jpg" with tag "2024:05:06 07:08:09" gets the tag's date in flat mode and the name's date in tree mode |
| Layout.ParsePosition | src/DateStamp.py:174-187 | Any position other than bottom-right is chosen only by its own name |
| Layout.PositionRoundTrip | src/DateStamp.py:174-187 | Each of the seven names selects its position |
| Layout.UnknownPosition | src/DateStamp.py:186-187 | Any name other than the seven selects bottom-right |
| Layout.UnknownPositionExample | src/DateStamp.py:186-187 | "center-left" and "Top-Left" select bottom-right |
| Layout.Origin | src/DateStamp.py:174-187 | The origin is aligned on both axes as the position says: at the margin, at size plus margin from the far edge, or centred with the odd pixel after the text |
| Layout.AlignedUnique | src/DateStamp.py:174-187 | An alignment admits only one coordinate |
| Layout.OriginCharacterized | src/DateStamp.py:174-187 | A point is the origin exactly when it is aligned on both axes |
| Layout.FrameShift | src/DateStamp.py:192 | `font_size // 4` is the floored quarter, and is non-negative exactly for non-negative sizes |
| Layout.Frame | src/DateStamp.py:189-195 | The frame is the text box grown by 10 on every side and moved down by the shift |
| Layout.FrameBelowPaddedText | src/DateStamp.py:192-194 | For a non-negative font size, the frame never starts above the padded text box |
| Layout.Place | src/DateStamp.py:174-195 | The placement for a name is the aligned origin plus the frame around it |
| Layout.PlacementExample | src/DateStamp.py:174-187 | A 100×20 text on a 1000×1000 image sits at (10,10) top-left, (890,970) bottom-right and (450,490) centred |
| Layout.FrameExample | src/DateStamp.py:189-195 | With a 30-point font, the bottom-right frame is [880, 967, 1000, 1007] |
| Encoding.SupportedIgnoresCase | src/DateStamp.py:218-224 | The supported-suffix filter gives the same answer for a name and its lower-cased form |
| Encoding.EncoderFor | src/DateStamp.py:201-204 | The output is written either as JPEG at quality 95 or in the format the extension selects; which paths get JPEG is stated by Encoding.SupportedEncoder |
| Encoding.TifNotPil | src/DateStamp.py:144 | A `.tif` name ends in none of PIL's suffixes |
| Encoding.SupportedReader | src/DateStamp.py:144-149 | Among supported files, exactly `.tif` goes through OpenCV |
| Encoding.EncoderOfJoin | src/DateStamp.py:201-204 | The encoder for a joined path is decided by the file name |
| Encoding.EncoderIgnoresCase | src/DateStamp.py:201 | The encoder choice ignores letter case |
| Encoding.SupportedEncoder | src/DateStamp.py:201-204 | Supported files are written as JPEG exactly when they are not png, bmp, tiff or tif, and always at quality 95 |
| Encoding.LowerKeepsSuffix | src/DateStamp.py:224 | A name ending in a suffix, lower-cased, ends in the lower-cased suffix |
| Encoding.EncoderExample | src/DateStamp.py:201-204 | "out/IMG_1.JPEG" is written as JPEG 95; "out/scan.TIF" by extension |
| TreeProcessing.DestFolder | src/DateStamp.py:286-290 | The destination folder is the root for '.', and otherwise ends with the relative path |
| TreeProcessing.TreeDestPath | src/DateStamp.py:296 | The tree destination path ends with the file name |
| TreeProcessing.FlatDestPath | src/DateStamp.py:213-231 | Overwrite writes over the input path; otherwise the copy is `watermarked_` plus the name, joined onto the output folder when one is given and onto the input folder when not |
| TreeProcessing.Finish | src/DateStamp.py:328-342 | A file is stamped exactly when it has a date and renders, with that date, destination and drawing style; with no date it is unresolved; never ignored |
| TreeProcessing.Run.RenderStyle | src/DateStamp.py:249-250 | The flat loop renders with the caller's font size and position and the default 10-pixel margins; the tree loop with the caller's font size, position and margins |
| TreeProcessing.Run.DestPath | src/DateStamp.py:225-231 | Every destination path, in either mode, ends with the file name |
| TreeProcessing.OutcomeOf | src/DateStamp.py:294-342 | Ignored exactly for unsupported names; unresolved or render-failed exactly as the chain and rendering say; a stamp carries the destination, the resolved date and the run's drawing style |
| TreeProcessing.Bump | src/DateStamp.py:247-258 | The counter statements after one file, written imperatively, leave the counters and the written copies exactly as `Count` says |
| TreeProcessing.Count | src/DateStamp.py:247-258 | An ignored file changes nothing; any other file raises processed + errors by exactly one: processed exactly when stamped, errors exactly when unresolved or failed; a stamp leaves errors unchanged and an unresolved or failed file leaves processed unchanged; only a stamp is added to the written copies |
| TreeProcessing.Tally | src/DateStamp.py:247-258 | processed + errors counts the handled files, and the copies written are the stamps, one per processed file |
| TreeProcessing.HandledIsSupported | src/DateStamp.py:224 | The handled files are exactly the supported ones |
| TreeProcessing.WalkStep | src/DateStamp.py:293-342 | Tallying one more file adds its outcome to the running counts |
| TreeProcessing.LookUpDate | src/DateStamp.py:294-342 | The imperative date lookup of either loop, each later source read only while no date was found, gives the same date as the chain `Resolve` in the run's order |
| TreeProcessing.HandleFile | src/DateStamp.py:294-342 | The per-file if-chain of either loop yields the file's outcome |
| TreeProcessing.Walk | src/DateStamp.py:284-342 | The counting loop computes the fold over all outcomes; processed + errors is the number of supported files |
| TreeProcessing.ProcessTree | src/DateStamp.py:264-346 | A missing source root gives nothing; otherwise the counts of the tree walk |
| TreeProcessing.ProcessFlat | src/DateStamp.py:209-262 | The flat loop's counts are the fold over its files |
| TreeProcessing.TallyAppend | src/DateStamp.py:247-258 | Counts and stamps of a concatenated walk are the sums |
| TreeProcessing.IgnoredIsNeutral | src/DateStamp.py:224 | An unsupported file changes no counter |
| TreeProcessing.StampsUseRunStyle | src/DateStamp.py:328-331 | Every copy a run writes is drawn with that run's parameters |
| TreeProcessing.FlatUsesDefaultMargins | src/DateStamp.py:249-250 | Every copy the flat loop writes has 10-pixel margins, whatever the caller wanted |
| TreeProcessing.MirrorPath | src/DateStamp.py:286-296 | The destination is root/name for '.' and root/rel/name otherwise |
| TreeProcessing.TreeStampPath | src/DateStamp.py:286-296 | A copy the tree loop stamps is written to root/name for the top folder and to root/rel/name for a subfolder |
| TreeProcessing.FlatStampPath | src/DateStamp.py:213-231 | A copy the flat loop stamps is written over the input file with overwrite, and otherwise as `watermarked_<name>` in the output folder, or the input folder when there is none |
| TreeExamples.NotesIgnored | src/DateStamp.py:279 | "notes.txt" is not supported |
| TreeExamples.NameOnly | src/DateStamp.py:302-330 | In tree mode, a file with a dated name and no other source is stamped with the name's date |
| TreeExamples.ExampleOutcomesFailed | src/DateStamp.py:340-342 | Undatable supported names are unresolved; a text file is ignored |
| TreeExamples.TallyOfShape | src/DateStamp.py:328-342 | Three stamps, two unresolved files and one ignored file count 3 processed and 2 errors |
| TreeExamples.TreeExample | src/DateStamp.py:264-346 | The six-file example walk counts 3 processed and 2 errors |

## Left out

- Unicode: digits and `lower` are modelled on ASCII only; Python also accepts other Unicode decimal digits and lower-cases non-ASCII letters. Whitespace follows Python's full `isspace` set.
- Years below 1000: `strftime('%Y')` output for them is platform-dependent; the stamp text writes four zero-padded digits.
- Pixels: opening, drawing, fonts and `textbbox` are left out. The text size enters `Layout` as an input.
- EXIF reading (`exifread`) and `os.path.getctime` are library and OS calls. Their results enter as `Resolution.Sources`.
- `preserve_file_metadata`: it catches its own `OSError` and `AttributeError`; anything else it raises surfaces through the render `try` and is part of `renderOk`.
- Folder creation: the `os.makedirs` calls (src/DateStamp.py:216 for the flat output folder, 272 for the destination root, 123 and 135 inside `create_directory_structure`, called at 276) are outside any `try`. A failure, such as permission denied or a destination root that exists as a regular file, aborts the whole run before any file is counted. The model assumes the folders can be created; `ProcessTree` and `ProcessFlat` give the counts of a run that gets past them.
- `main` and argument parsing, the GUI, the packaging scripts and the test scripts are outside the core.
- Printing: the prints inside the render `try` (src/DateStamp.py:251 and 334-335) can raise, for example on a closed pipe or on a standard output whose encoding cannot hold the Cyrillic or emoji text. The copy is then already written, but the file counts as an error; the model folds this into `renderOk`. A print outside any `try` that raises aborts the run, and the model assumes none does. The `date_source` label only reaches log text.
- The `opacity` parameter is never used by the code; the text and background colours only reach the drawing library.
- The flat loop on a missing input folder: `os.listdir` raises and the run stops; the model takes the file list as given.
- The walk order of `os.walk` and `os.listdir` is taken as the given sequence.
- Render failures: whether the render `try` raises (the `add_datetime_watermark` call or a print after it) is an input (`renderOk`) of each file record.
- A stamp's `Style` records the parameters handed to the renderer; the position and frame they produce are `Layout.Place`, which is not re-applied per stamp.
- Encoding.EncoderOfJoin: stated for file names of at least five characters (the length of `.jpeg`); shorter names could have their suffix completed by the directory.
- FilenameDates.PlainDayFirstNameDate: stated for prefixes and tails without '.' or '/', so that the extension `splitext` removes is exactly the given one; names where the camera pattern does match are decided by `FilenameDates.CameraDecides`.
- Paths: joining and extension splitting follow POSIX `os.path` (`posixpath.join`, `splitext`). Windows `ntpath` behaviour, with `\` as a separator and drive letters, is not modelled.
- TreeProcessing.MirrorPath: stated for a root and relative path without leading or trailing slashes, as `os.walk` and `relpath` produce them.

=== FILE: calendar.dfy ===
/** Python `datetime.datetime` restricted to what the stamping code uses:
    a calendar date and a time of day with second resolution, plus the
    `strftime('%Y-%m-%d %H:%M:%S')` rendering that becomes the stamp text. */
module Calendar {
  import opened PyStr

  datatype DateTime = DateTime(year: nat, month: nat, day: nat, hour: nat, minute: nat, second: nat)
  {
    /** The range the `datetime` constructor accepts (MINYEAR 1 .. MAXYEAR 9999). */
    predicate Valid() {
      && 1 <= year <= 9999
      && 1 <= month <= 12
      && 1 <= day <= DaysInMonth(year, month)
      && hour < 24
      && minute < 60
      && second < 60
    }
  }

  /** Proleptic Gregorian leap year, as Python's `calendar.isleap`. */
  predicate IsLeap(year: nat) {
    year % 4 == 0 && (year % 100 != 0 || year % 400 == 0)
  }

  function DaysInMonth(year: nat, month: nat): (n: nat)
    ensures 1 <= month <= 12 ==> 28 <= n <= 31
    ensures month == 2 ==> (n == 29 <==> IsLeap(year))
  {
    if month == 2 then (if IsLeap(year) then 29 else 28)
    else if month == 4 || month == 6 || month == 9 || month == 11 then 30
    else 31
  }

  /** The layout `%Y<sep>%m<sep>%d %H:%M:%S` with every field zero-padded
      (`sep` is ':' for EXIF and `-` for the stamp text). */
  function Canonical(dt: DateTime, sep: char): (s: string)
  {
    FixedWidth(Digits(dt.year, 4), Digits(dt.month, 2), Digits(dt.day, 2),
               Digits(dt.hour, 2), Digits(dt.minute, 2), Digits(dt.second, 2), sep)
  }

  /** The text `y<sep>mo<sep>d h:mi:se` that the recognizers assemble from their fields. */
  function FixedWidth(y: string, mo: string, d: string, h: string, mi: string, se: string, sep: char): string
  {
    y + ([sep] + (mo + ([sep] + (d + (" " + (h + (":" + (mi + (":" + se)))))))))
  }

  /** The watermark text, `datetime_obj.strftime('%Y-%m-%d %H:%M:%S')`. */
  function StampText(dt: DateTime): (s: string)
    ensures |s| == 19
    ensures s[4] == '-' && s[7] == '-' && s[10] == ' ' && s[13] == ':' && s[16] == ':'
    ensures forall i :: 0 <= i < 19 && i !in {4, 7, 10, 13, 16} ==> IsDigit(s[i])
  {
    Canonical(dt, '-')
  }
}

=== FILE: encoding.dfy ===
/** Decisions taken from a file's name alone: which files are handled at all,
    which library reads an image, and which encoder writes the stamped copy.
    All comparisons are made on the lower-cased name. */
module Encoding {
  import opened PyStr

  /** `supported_formats` of both entry points, checked with `str.endswith` on
      the lower-cased name. */
  predicate IsSupported(name: string)
  {
    var s := Lower(name);
    EndsWith(s, ".jpg") || EndsWith(s, ".jpeg") || EndsWith(s, ".png")
    || EndsWith(s, ".bmp") || EndsWith(s, ".tiff") || EndsWith(s, ".tif")
  }

  /** The filter does not depend on letter case. */
  lemma SupportedIgnoresCase(name: string)
    ensures IsSupported(Lower(name)) == IsSupported(name)
  {
    LowerIdempotent(name);
  }

  /** The suffixes `add_datetime_watermark` opens with PIL; `.tif` is not among them. */
  predicate PilReadable(path: string)
  {
    var s := Lower(path);
    EndsWith(s, ".png") || EndsWith(s, ".jpg") || EndsWith(s, ".jpeg")
    || EndsWith(s, ".bmp") || EndsWith(s, ".tiff")
  }

  /** Which library decodes the input image. */
  datatype Reader = Pil | OpenCv

  function ReaderFor(path: string): (r: Reader)
    ensures r == Pil <==> PilReadable(path)
  {
    if PilReadable(path) then Pil else OpenCv
  }

  /** A name ending in `.tif` ends in none of PIL's suffixes: they all end in
      another letter than `f`, except `.tiff`, whose last but one letter is `f`. */
  lemma TifNotPil(s: string)
    requires EndsWith(s, ".tif")
    ensures !EndsWith(s, ".png") && !EndsWith(s, ".jpg") && !EndsWith(s, ".jpeg")
    ensures !EndsWith(s, ".bmp") && !EndsWith(s, ".tiff")
  {
    assert s[|s| - 1] == 'f' && s[|s| - 2] == 'i';
  }

  /** A supported file goes to OpenCV exactly when its name ends in `.tif`. */
  lemma SupportedReader(path: string)
    requires IsSupported(path)
    ensures ReaderFor(path) == OpenCv <==> EndsWith(Lower(path), ".tif")
  {
    if EndsWith(Lower(path), ".tif") {
      TifNotPil(Lower(path));
    }
  }

  /** How the stamped image is written. */
  datatype Encoder = Jpeg(quality: nat) | FromExtension

  /** JPEG at quality 95 for a `.jpg` or `.jpeg` output path, otherwise PIL's
      choice from the extension. */
  function EncoderFor(outputPath: string): (e: Encoder)
    ensures e == Jpeg(95) || e == FromExtension
  {
    var p := Lower(outputPath);
    if EndsWith(p, ".jpg") || EndsWith(p, ".jpeg") then Jpeg(95) else FromExtension
  }

  lemma EndsWithConcat(a: string, b: string, e: string)
    requires |e| <= |b|
    ensures EndsWith(a + b, e) <==> EndsWith(b, e)
  {
    assert (a + b)[|a + b| - |e|..] == b[|b| - |e|..];
  }

  /** The encoder for a path joined onto any directory is decided by the
      file name (names of at least five characters, the length of `.jpeg`). */
  lemma EncoderOfJoin(dir: string, name: string)
    requires |name| >= 5
    ensures EncoderFor(Join(dir, name)) == EncoderFor(name)
  {
    var r := Join(dir, name);
    var pre := r[..|r| - |name|];
    assert r == pre + name;
    LowerConcat(pre, name);
    EndsWithConcat(Lower(pre), Lower(name), ".jpg");
    EndsWithConcat(Lower(pre), Lower(name), ".jpeg");
  }

  /** Letter case in the output path does not matter. */
  lemma EncoderIgnoresCase(outputPath: string)
    ensures EncoderFor(Lower(outputPath)) == EncoderFor(outputPath)
  {
    LowerIdempotent(outputPath);
  }

  /** Among supported names, exactly the `.jpg` and `.jpeg` ones are written
      as JPEG, always at quality 95; `.png`, `.bmp`, `.tiff` and `.tif` are
      left to the extension. */
  lemma SupportedEncoder(name: string)
    requires IsSupported(name)
    ensures EncoderFor(name).Jpeg?
        <==> (!EndsWith(Lower(name), ".png") && !EndsWith(Lower(name), ".bmp")
              && !EndsWith(Lower(name), ".tiff") && !EndsWith(Lower(name), ".tif"))
    ensures EncoderFor(name).Jpeg? ==> EncoderFor(name).quality == 95
  {
    var s := Lower(name);
    if EndsWith(s, ".jpg") || EndsWith(s, ".jpeg") {
      JpegNotOther(s);
    }
  }

  lemma JpegNotOther(s: string)
    requires EndsWith(s, ".jpg") || EndsWith(s, ".jpeg")
    ensures !EndsWith(s, ".png") && !EndsWith(s, ".bmp") && !EndsWith(s, ".tiff") && !EndsWith(s, ".tif")
  {
    assert s[|s| - 1] == 'g';
    if EndsWith(s, ".jpg") {
      assert s[|s| - 3] == 'j';
    } else {
      assert s[|s| - 4] == 'j';
    }
  }

  /** Lower-casing a name lower-cases its ending. */
  lemma LowerKeepsSuffix(name: string, e: string)
    requires EndsWith(name, e)
    ensures EndsWith(Lower(name), Lower(e))
  {
    var pre := name[..|name| - |e|];
    assert name == pre + e;
    LowerConcat(pre, e);
    EndsWithConcat(Lower(pre), Lower(e), Lower(e));
  }

  lemma EncoderExample()
    ensures EncoderFor("out/IMG_1.JPEG") == Jpeg(95)
    ensures EncoderFor("out/scan.TIF") == FromExtension
  {
    assert Lower("out/IMG_1.JPEG")[9..] == ".jpeg";
    assert Lower("out/scan.TIF")[8..] == ".tif";
  }
}

=== FILE: filename_dates.dfy ===
/** `get_datetime_from_filename`: four recognizers tried in order on the file
    name without its extension. The first two are decided by a guard alone;
    the last two are regular-expression searches. Whichever recognizer
    applies decides the result: when its text is not a valid datetime the
    `ValueError` is swallowed and the answer is `None`, without trying the
    recognizers after it. */
module FilenameDates {
  import opened Wrappers
  import opened PyStr
  import opened Calendar
  import opened Strptime

  /** `dt_str` as the two compact recognizers assemble it from a date part and
      a time part (Python slices, so short parts give short fields). */
  function SlicedStamp(datePart: string, timePart: string): string
  {
    FixedWidth(Slice(datePart, 0, 4), Slice(datePart, 4, 6), Slice(datePart, 6, 8),
               Slice(timePart, 0, 2), Slice(timePart, 2, 4), Slice(timePart, 4, 6), ':')
  }

  /** Recognizer 1 applies: `IMG_` prefix and at least 15 characters. */
  predicate ImgGuard(base: string) {
    StartsWith(base, "IMG_") && |base| >= 15
  }

  /** Recognizer 1: date from characters 4..11, time from 13..18; character 12 is never looked at. */
  function ImgParse(base: string): (r: Option<DateTime>)
    requires ImgGuard(base)
    ensures r.Some? ==> r.value.Valid()
  {
    ParseDateTime(SlicedStamp(Slice(base, 4, 12), Slice(base, 13, 19)), ':')
  }

  /** Recognizer 2 applies: at least 15 characters, eight digits, then `_`. */
  predicate CompactGuard(base: string) {
    |base| >= 15 && base[8] == '_' && AllDigits(base[..8])
  }

  /** Recognizer 2: date from characters 0..7, time from 9..14. */
  function CompactParse(base: string): (r: Option<DateTime>)
    requires CompactGuard(base)
    ensures r.Some? ==> r.value.Valid()
  {
    ParseDateTime(SlicedStamp(base[..8], base[9..15]), ':')
  }

  /** The six captured groups of `(\d{1,2})-(\d{1,2})-(\d{4})_(\d{1,2})h(\d{1,2})m(\d{1,2})s`. */
  datatype Groups = Groups(day: string, month: string, year: string, hour: string, minute: string, second: string)
  {
    predicate WellFormed() {
      && AllDigits(day) && |day| <= 2 && AllDigits(month) && |month| <= 2
      && AllDigits(year) && |year| == 4
      && AllDigits(hour) && |hour| <= 2 && AllDigits(minute) && |minute| <= 2
      && AllDigits(second) && |second| <= 2
    }

    /** The datetime the groups denote, fields taken as numbers. */
    function Denoted(): DateTime {
      DateTime(DigitsValue(year), DigitsValue(month), DigitsValue(day),
               DigitsValue(hour), DigitsValue(minute), DigitsValue(second))
    }
  }

  /** `(\d{1,2})` followed by `delim` at index `i`: the index of the delimiter.
      Greedy two digits first; backtracking to one digit can only succeed when
      the second character is the (non-digit) delimiter, so this is exact. */
  function DigitRun12(s: string, i: nat, delim: char): (r: Option<nat>)
    ensures r.Some? ==> i < r.value <= i + 2 && r.value < |s| && s[r.value] == delim
    ensures r.Some? ==> forall k :: i <= k < r.value ==> IsDigit(s[k])
  {
    if i + 2 < |s| && IsDigit(s[i]) && IsDigit(s[i + 1]) && s[i + 2] == delim then Some(i + 2)
    else if i + 1 < |s| && IsDigit(s[i]) && s[i + 1] == delim then Some(i + 1)
    else None
  }

  /** `(\d{4})_` at index `k`. */
  predicate YearAt(s: string, k: nat) {
    k + 4 < |s| && AllDigits(s[k..k + 4]) && s[k + 4] == '_'
  }

  /** The clock part `(\d{1,2})h(\d{1,2})m(\d{1,2})s` anchored at index `k`: hour, minute, second groups. */
  function MatchClock(s: string, k: nat): (r: Option<(string, string, string)>)
    ensures r.Some? ==> AllDigits(r.value.0) && |r.value.0| <= 2 && AllDigits(r.value.1) && |r.value.1| <= 2
    ensures r.Some? ==> AllDigits(r.value.2) && |r.value.2| <= 2
  {
    var e4 :- DigitRun12(s, k, 'h');
    var e5 :- DigitRun12(s, e4 + 1, 'm');
    var e6 :- DigitRun12(s, e5 + 1, 's');
    Some((s[k..e4], s[e4 + 1..e5], s[e5 + 1..e6]))
  }

  /** The day-first pattern anchored at index `i`. */
  function MatchDayFirst(s: string, i: nat): (r: Option<Groups>)
    ensures r.Some? ==> r.value.WellFormed()
  {
    var e1 :- DigitRun12(s, i, '-');
    var e2 :- DigitRun12(s, e1 + 1, '-');
    if !YearAt(s, e2 + 1) then None
    else
      var clock :- MatchClock(s, e2 + 6);
      Some(Groups(s[i..e1], s[e1 + 1..e2], s[e2 + 1..e2 + 5], clock.0, clock.1, clock.2))
  }

  /** The first index `j >= k` that is the end of `s` or not a digit. */
  function DigitRunEnd(s: string, k: nat): (j: nat)
    requires k <= |s|
    ensures k <= j <= |s|
    ensures j < |s| ==> !IsDigit(s[j])
    ensures forall m :: k <= m < j ==> IsDigit(s[m])
    decreases |s| - k
  {
    if k < |s| && IsDigit(s[k]) then DigitRunEnd(s, k + 1) else k
  }

  /** `camera\d+_` then the day-first pattern, anchored at index `i`
      (greedy `\d+` is exact because `_` is not a digit). */
  function MatchCamera(s: string, i: nat): (r: Option<Groups>)
    ensures r.Some? ==> r.value.WellFormed()
  {
    if i + 6 <= |s| && s[i..i + 6] == "camera" then
      var e := DigitRunEnd(s, i + 6);
      if e > i + 6 && e < |s| && s[e] == '_' then MatchDayFirst(s, e + 1) else None
    else None
  }

  datatype Pattern = CameraPattern | DayFirstPattern

  function MatchAt(p: Pattern, s: string, i: nat): (r: Option<Groups>)
    ensures r.Some? ==> r.value.WellFormed()
  {
    match p
    case CameraPattern => MatchCamera(s, i)
    case DayFirstPattern => MatchDayFirst(s, i)
  }

  datatype Hit = Hit(pos: nat, groups: Groups)

  /** `re.search` from index `i`: the leftmost index at which the pattern matches. */
  function Search(p: Pattern, s: string, i: nat): (r: Option<Hit>)
    requires i <= |s| + 1
    ensures r.Some? ==> i <= r.value.pos <= |s| && MatchAt(p, s, r.value.pos) == Some(r.value.groups)
    ensures r.Some? ==> forall k :: i <= k < r.value.pos ==> MatchAt(p, s, k).None?
    ensures r.None? ==> forall k :: i <= k <= |s| ==> MatchAt(p, s, k).None?
    decreases |s| + 1 - i
  {
    if i > |s| then None
    else match MatchAt(p, s, i)
      case Some(g) => Some(Hit(i, g))
      case None => Search(p, s, i + 1)
  }

  /** Recognizers 3 and 4 after a match: fields zero-padded, reordered to
      year-month-day and parsed with `%Y-%m-%d %H:%M:%S`. */
  function DayFirstParse(g: Groups): (r: Option<DateTime>)
    ensures r.Some? ==> r.value.Valid()
  {
    ParseDateTime(FixedWidth(g.year, Zfill2(g.month), Zfill2(g.day),
                             Zfill2(g.hour), Zfill2(g.minute), Zfill2(g.second), '-'), '-')
  }

  /** `get_datetime_from_filename(filename)`. Total: every error is `None`. */
  function FromFilename(filename: string): (r: Option<DateTime>)
    ensures r.Some? ==> r.value.Valid()
  {
    FromBaseName(StripExtension(filename))
  }

  /** The recognizers, in order, on the name without its extension. */
  function FromBaseName(base: string): (r: Option<DateTime>)
    ensures r.Some? ==> r.value.Valid()
  {
    if ImgGuard(base) then ImgParse(base)
    else if CompactGuard(base) then CompactParse(base)
    else match Search(CameraPattern, base, 0)
      case Some(hit) => DayFirstParse(hit.groups)
      case None =>
        match Search(DayFirstPattern, base, 0)
        case Some(hit) => DayFirstParse(hit.groups)
        case None => None
  }

  /** Once the `IMG_` guard holds, its parse is the answer, even `None`. */
  lemma ImgGuardDecides(base: string)
    requires ImgGuard(base)
    ensures FromBaseName(base) == ImgParse(base)
  {
  }

  /** Once the `IMG_` guard fails and the compact guard holds, the compact
      parse is the answer, even `None`. */
  lemma CompactGuardDecides(base: string)
    requires !ImgGuard(base) && CompactGuard(base)
    ensures FromBaseName(base) == CompactParse(base)
  {
  }

  // ---------------------------------------------------------------------
  // Names built from a datetime

  /** A name part with no dot and no slash, so that `splitext` cannot cut inside it. */
  predicate PlainStem(base: string) {
    |base| > 0 && forall k :: 0 <= k < |base| ==> base[k] != '.' && base[k] != '/'
  }

  /** Empty, or a dot followed by neither dots nor slashes: what `splitext` strips. */
  predicate PlainExtension(ext: string) {
    ext == "" || (ext[0] == '.' && forall k :: 1 <= k < |ext| ==> ext[k] != '.' && ext[k] != '/')
  }

  lemma StripPlainExtension(base: string, ext: string)
    requires PlainStem(base) && PlainExtension(ext)
    ensures StripExtension(base + ext) == base
  {
    var p := base + ext;
    var sepIndex := RFind(p, '/');
    var dotIndex := RFind(p, '.');
    assert sepIndex == -1;
    if ext == "" {
      assert p == base;
    } else {
      assert p[|base|] == '.';
      assert dotIndex == |base|;
      assert p[0] != '.';
      assert HasNonDot(p, 0, dotIndex);
      assert p[..dotIndex] == base;
    }
  }

  /** `YYYYMMDD` and `HHMMSS` of a datetime. */
  function DateDigits(dt: DateTime): (s: string)
    ensures |s| == 8
  {
    Digits(dt.year, 4) + Digits(dt.month, 2) + Digits(dt.day, 2)
  }

  function TimeDigits(dt: DateTime): (s: string)
    ensures |s| == 6
  {
    Digits(dt.hour, 2) + Digits(dt.minute, 2) + Digits(dt.second, 2)
  }

  lemma DigitPartsAreDigits(dt: DateTime)
    ensures forall k :: 0 <= k < 8 ==> IsDigit(DateDigits(dt)[k])
    ensures forall k :: 0 <= k < 6 ==> IsDigit(TimeDigits(dt)[k])
  {
    var y, mo, d := Digits(dt.year, 4), Digits(dt.month, 2), Digits(dt.day, 2);
    var h, mi, se := Digits(dt.hour, 2), Digits(dt.minute, 2), Digits(dt.second, 2);
    forall k | 0 <= k < 8 ensures IsDigit(DateDigits(dt)[k]) {
      if k < 4 { assert DateDigits(dt)[k] == y[k]; }
      else if k < 6 { assert DateDigits(dt)[k] == mo[k - 4]; }
      else { assert DateDigits(dt)[k] == d[k - 6]; }
    }
    forall k | 0 <= k < 6 ensures IsDigit(TimeDigits(dt)[k]) {
      if k < 2 { assert TimeDigits(dt)[k] == h[k]; }
      else if k < 4 { assert TimeDigits(dt)[k] == mi[k - 2]; }
      else { assert TimeDigits(dt)[k] == se[k - 4]; }
    }
  }

  /** Slicing the digit parts as the compact recognizers do rebuilds the EXIF layout. */
  lemma SlicedStampOfDigits(dt: DateTime)
    ensures SlicedStamp(DateDigits(dt), TimeDigits(dt)) == Canonical(dt, ':')
  {
    var dd, td := DateDigits(dt), TimeDigits(dt);
    assert Slice(dd, 0, 4) == Digits(dt.year, 4);
    assert Slice(dd, 4, 6) == Digits(dt.month, 2);
    assert Slice(dd, 6, 8) == Digits(dt.day, 2);
    assert Slice(td, 0, 2) == Digits(dt.hour, 2);
    assert Slice(td, 2, 4) == Digits(dt.minute, 2);
    assert Slice(td, 4, 6) == Digits(dt.second, 2);
  }

  /** `IMG_YYYYMMDD_HHMMSS`, the camera naming recognizer 1 reads. */
  function ImgName(dt: DateTime): (s: string)
    ensures |s| == 19
  {
    "IMG_" + DateDigits(dt) + "_" + TimeDigits(dt)
  }

  /** `YYYYMMDD_HHMMSS`, the naming recognizer 2 reads. */
  function CompactName(dt: DateTime): (s: string)
    ensures |s| == 15
  {
    DateDigits(dt) + "_" + TimeDigits(dt)
  }

  /** Any valid datetime written as `IMG_YYYYMMDD_HHMMSS` (with any plain
      extension) is read back as the same datetime. */
  lemma {:induction false} ImgNameRoundTrip(dt: DateTime, ext: string)
    requires dt.Valid() && PlainExtension(ext)
    ensures FromFilename(ImgName(dt) + ext) == Some(dt)
  {
    var base := ImgName(dt);
    DigitPartsAreDigits(dt);
    assert PlainStem(base) by {
      forall k | 0 <= k < |base| ensures base[k] != '.' && base[k] != '/' {
        if 4 <= k < 12 { assert base[k] == DateDigits(dt)[k - 4]; }
        else if 13 <= k { assert base[k] == TimeDigits(dt)[k - 13]; }
      }
    }
    StripPlainExtension(base, ext);
    assert base[..4] == "IMG_";
    assert Slice(base, 4, 12) == DateDigits(dt);
    assert Slice(base, 13, 19) == TimeDigits(dt);
    SlicedStampOfDigits(dt);
    CanonicalRoundTrip(dt, ':');
  }

  /** Any valid datetime written as `YYYYMMDD_HHMMSS` is read back as the same datetime. */
  lemma {:induction false} CompactNameRoundTrip(dt: DateTime, ext: string)
    requires dt.Valid() && PlainExtension(ext)
    ensures FromFilename(CompactName(dt) + ext) == Some(dt)
  {
    var base := CompactName(dt);
    DigitPartsAreDigits(dt);
    assert PlainStem(base) by {
      forall k | 0 <= k < |base| ensures base[k] != '.' && base[k] != '/' {
        if k < 8 { assert base[k] == DateDigits(dt)[k]; }
        else if 9 <= k { assert base[k] == TimeDigits(dt)[k - 9]; }
      }
    }
    StripPlainExtension(base, ext);
    assert !ImgGuard(base) by { assert base[0] == DateDigits(dt)[0]; }
    assert base[..8] == DateDigits(dt);
    assert base[9..15] == TimeDigits(dt);
    SlicedStampOfDigits(dt);
    CanonicalRoundTrip(dt, ':');
  }

  // ---------------------------------------------------------------------
  // The day-first recognizers

  lemma ZfillDigits(x: string)
    requires AllDigits(x) && |x| <= 2
    ensures |Zfill2(x)| == 2 && AllDigits(Zfill2(x)) && DigitsValue(Zfill2(x)) == DigitsValue(x)
  {
    if |x| == 1 {
      var z := Zfill2(x);
      assert z == ['0', x[0]];
      assert z[..1] == ['0'] && ['0'][..0] == [] && x[..0] == [];
    }
  }

  /** Recognizers 3 and 4 reorder the day-first groups to year-month-day and
      zero-pad them: the result is the datetime the groups denote, or `None`
      when it is not a valid one (month 13, 30 February, hour 24, ...). */
  lemma {:induction false} DayFirstDenotes(g: Groups)
    requires g.WellFormed()
    ensures DayFirstParse(g) == if g.Denoted().Valid() then Some(g.Denoted()) else None
  {
    ZfillDigits(g.month);
    ZfillDigits(g.day);
    ZfillDigits(g.hour);
    ZfillDigits(g.minute);
    ZfillDigits(g.second);
    ParseFixedWidth(g.year, Zfill2(g.month), Zfill2(g.day), Zfill2(g.hour), Zfill2(g.minute), Zfill2(g.second), '-');
  }

  /** The text `D-M-YYYY_HhMmSs` the groups were captured from. */
  function DayFirstText(g: Groups): string
  {
    g.day + ("-" + (g.month + ("-" + (g.year + ("_" + (g.hour + ("h" + (g.minute + ("m" + (g.second + "s"))))))))))
  }

  /** Locating a piece inside a concatenation. */
  lemma Piece(s: string, p: string, a: string, c: char, rest: string)
    requires s == p + (a + ([c] + rest))
    ensures s[|p|..|p| + |a|] == a && s[|p| + |a|] == c
    ensures s == (p + a + [c]) + rest
  {
  }

  lemma DigitRunAt(s: string, i: nat, run: string, delim: char)
    requires AllDigits(run) && |run| <= 2 && !IsDigit(delim)
    requires i + |run| < |s| && s[i..i + |run|] == run && s[i + |run|] == delim
    ensures DigitRun12(s, i, delim) == Some(i + |run|)
  {
    assert s[i] == run[0];
    if |run| == 2 { assert s[i + 1] == run[1]; }
  }

  /** The clock part anchored where such a text starts captures exactly its groups. */
  lemma {:induction false} MatchClockText(pre: string, h: string, m: string, sec: string, tail: string)
    requires AllDigits(h) && |h| <= 2 && AllDigits(m) && |m| <= 2 && AllDigits(sec) && |sec| <= 2
    ensures MatchClock(pre + (h + ("h" + (m + ("m" + (sec + ("s" + tail)))))), |pre|) == Some((h, m, sec))
  {
    var s := pre + (h + ("h" + (m + ("m" + (sec + ("s" + tail))))));
    Piece(s, pre, h, 'h', m + ("m" + (sec + ("s" + tail))));
    var p1 := pre + h + "h";
    Piece(s, p1, m, 'm', sec + ("s" + tail));
    var p2 := p1 + m + "m";
    Piece(s, p2, sec, 's', tail);
    DigitRunAt(s, |pre|, h, 'h');
    DigitRunAt(s, |p1|, m, 'm');
    DigitRunAt(s, |p2|, sec, 's');
  }

  /** The clock part of a day-first text, with what follows it. */
  function ClockText(g: Groups, tail: string): string
  {
    g.hour + ("h" + (g.minute + ("m" + (g.second + ("s" + tail)))))
  }

  /** Where the date fields of a day-first text sit. */
  lemma {:induction false} DayFirstLayout(pre: string, g: Groups, tail: string)
    ensures var s := pre + DayFirstText(g) + tail;
            var e1 := |pre| + |g.day|;
            var e2 := e1 + 1 + |g.month|;
            && e2 + 5 <= |s|
            && s[|pre|..e1] == g.day && s[e1] == '-' && s[e1 + 1..e2] == g.month && s[e2] == '-'
            && s[e2 + 1..e2 + 1 + |g.year|] == g.year && s[e2 + 1 + |g.year|] == '_'
            && s == (pre + g.day + "-" + g.month + "-" + g.year + "_") + ClockText(g, tail)
  {
    var s := pre + DayFirstText(g) + tail;
    var clock := ClockText(g, tail);
    var r2 := "-" + (g.year + ("_" + clock));
    var r1 := "-" + (g.month + r2);
    assert s == pre + (g.day + r1);
    Piece(s, pre, g.day, '-', g.month + r2);
    var p1 := pre + g.day + "-";
    Piece(s, p1, g.month, '-', g.year + ("_" + clock));
    var p2 := p1 + g.month + "-";
    Piece(s, p2, g.year, '_', clock);
  }

  /** The date part of a day-first text is matched field by field. */
  lemma {:induction false} DayFirstHead(pre: string, g: Groups, tail: string)
    requires g.WellFormed()
    ensures var s := pre + DayFirstText(g) + tail;
            var e1 := |pre| + |g.day|;
            var e2 := e1 + 1 + |g.month|;
            && DigitRun12(s, |pre|, '-') == Some(e1) && DigitRun12(s, e1 + 1, '-') == Some(e2) && YearAt(s, e2 + 1)
            && s[|pre|..e1] == g.day && s[e1 + 1..e2] == g.month && s[e2 + 1..e2 + 5] == g.year
            && s == (pre + g.day + "-" + g.month + "-" + g.year + "_") + ClockText(g, tail)
  {
    var s := pre + DayFirstText(g) + tail;
    DayFirstLayout(pre, g, tail);
    var e1 := |pre| + |g.day|;
    DigitRunAt(s, |pre|, g.day, '-');
    DigitRunAt(s, e1 + 1, g.month, '-');
  }

  /** The day-first pattern anchored where such a text starts captures exactly its groups. */
  lemma {:induction false} MatchDayFirstText(pre: string, g: Groups, tail: string)
    requires g.WellFormed()
    ensures MatchDayFirst(pre + DayFirstText(g) + tail, |pre|) == Some(g)
  {
    var s := pre + DayFirstText(g) + tail;
    DayFirstHead(pre, g, tail);
    var p3 := pre + g.day + "-" + g.month + "-" + g.year + "_";
    MatchClockText(p3, g.hour, g.minute, g.second, tail);
    assert MatchClock(s, |p3|) == Some((g.hour, g.minute, g.second));
  }

  /** `camera<n>_D-M-YYYY_HhMmSs<tail>`, the naming recognizer 3 reads. */
  function CameraName(n: string, g: Groups, tail: string): string
  {
    "camera" + n + "_" + DayFirstText(g) + tail
  }

  predicate NoDotOrSlash(s: string) {
    forall k :: 0 <= k < |s| ==> s[k] != '.' && s[k] != '/'
  }

  lemma NoDotOrSlashConcat(a: string, b: string)
    requires NoDotOrSlash(a) && NoDotOrSlash(b)
    ensures NoDotOrSlash(a + b)
  {
    forall k | 0 <= k < |a + b| ensures (a + b)[k] != '.' && (a + b)[k] != '/' {
      if k < |a| { assert (a + b)[k] == a[k]; } else { assert (a + b)[k] == b[k - |a|]; }
    }
  }

  lemma DayFirstTextPlain(g: Groups)
    requires g.WellFormed()
    ensures NoDotOrSlash(DayFirstText(g)) && 'c' !in DayFirstText(g)
    ensures |DayFirstText(g)| > 0 && IsDigit(DayFirstText(g)[0])
    ensures |g.day| < |DayFirstText(g)| && DayFirstText(g)[|g.day|] == '-'
  {
    assert DayFirstText(g)[0] == g.day[0];
  }

  /** When the first two guards fail, the camera search decides if it matches. */
  lemma CameraDecides(base: string, hit: Hit)
    requires !ImgGuard(base) && !CompactGuard(base)
    requires Search(CameraPattern, base, 0) == Some(hit)
    ensures FromBaseName(base) == DayFirstParse(hit.groups)
  {
  }

  /** When no recognizer before it applies, the day-first search decides. */
  lemma DayFirstDecides(base: string, hit: Hit)
    requires !ImgGuard(base) && !CompactGuard(base)
    requires Search(CameraPattern, base, 0).None? && Search(DayFirstPattern, base, 0) == Some(hit)
    ensures FromBaseName(base) == DayFirstParse(hit.groups)
  {
  }

  lemma FirstGuardsFail(base: string)
    requires |base| > 0 && base[0] != 'I' && !IsDigit(base[0])
    ensures !ImgGuard(base) && !CompactGuard(base)
  {
    if |base| >= 15 { assert base[..8][0] == base[0]; }
  }

  lemma SearchHitsStart(p: Pattern, s: string, g: Groups)
    requires MatchAt(p, s, 0) == Some(g)
    ensures Search(p, s, 0) == Some(Hit(0, g))
  {
  }

  /** `re.search` reports the first position at which the pattern matches. */
  lemma SearchFindsFirst(p: Pattern, s: string, j: nat, g: Groups)
    requires j <= |s| && MatchAt(p, s, j) == Some(g)
    requires forall k :: 0 <= k < j ==> MatchAt(p, s, k).None?
    ensures Search(p, s, 0) == Some(Hit(j, g))
  {
  }

  lemma CameraMatchesAtStart(n: string, g: Groups, tail: string)
    requires AllDigits(n) && g.WellFormed()
    ensures MatchAt(CameraPattern, CameraName(n, g, tail), 0) == Some(g)
  {
    var base := CameraName(n, g, tail);
    var pre := "camera" + n + "_";
    assert base == pre + DayFirstText(g) + tail;
    assert base[..6] == "camera";
    assert base[6 + |n|] == '_';
    forall m | 6 <= m < 6 + |n| ensures IsDigit(base[m]) { assert base[m] == n[m - 6]; }
    assert DigitRunEnd(base, 6) == 6 + |n|;
    MatchDayFirstText(pre, g, tail);
  }

  /** A camera-style name yields the datetime its groups denote, reordered
      from day-first and zero-padded, or `None` when that is not a valid datetime. */
  lemma {:induction false} CameraNameDate(n: string, g: Groups, tail: string, ext: string)
    requires AllDigits(n) && g.WellFormed() && NoDotOrSlash(tail) && PlainExtension(ext)
    ensures FromFilename(CameraName(n, g, tail) + ext) == if g.Denoted().Valid() then Some(g.Denoted()) else None
  {
    var base := CameraName(n, g, tail);
    DayFirstTextPlain(g);
    assert NoDotOrSlash("camera" + n + "_") by {
      forall k | 0 <= k < |"camera" + n + "_"| ensures ("camera" + n + "_")[k] != '.' && ("camera" + n + "_")[k] != '/' {
        if 6 <= k < 6 + |n| { assert ("camera" + n + "_")[k] == n[k - 6]; }
      }
    }
    NoDotOrSlashConcat("camera" + n + "_", DayFirstText(g));
    NoDotOrSlashConcat("camera" + n + "_" + DayFirstText(g), tail);
    StripPlainExtension(base, ext);
    assert base[0] == 'c';
    FirstGuardsFail(base);
    CameraMatchesAtStart(n, g, tail);
    SearchHitsStart(CameraPattern, base, g);
    CameraDecides(base, Hit(0, g));
    DayFirstDenotes(g);
  }

  lemma NoCameraAnywhere(base: string)
    requires 'c' !in base
    ensures Search(CameraPattern, base, 0).None?
  {
    assert forall k :: 0 <= k < |base| ==> base[k] != 'c';
    forall k | 0 <= k <= |base| ensures MatchAt(CameraPattern, base, k).None? {
      if k + 6 <= |base| { assert base[k..k + 6][0] == base[k]; }
    }
  }

  lemma PlainPrefixGuards(pre: string, g: Groups, tail: string)
    requires g.WellFormed()
    requires forall k :: 0 <= k < |pre| ==> !IsDigit(pre[k])
    requires |pre| >= 4 ==> pre[..4] != "IMG_"
    ensures !ImgGuard(pre + DayFirstText(g) + tail) && !CompactGuard(pre + DayFirstText(g) + tail)
  {
    var base := pre + DayFirstText(g) + tail;
    var text := DayFirstText(g);
    DayFirstTextPlain(g);
    assert base[|pre|] == text[0];
    if |pre| >= 4 {
      assert base[..4] == pre[..4];
    } else if |base| >= 4 {
      assert base[..4][|pre|] == text[0];
    }
    if |pre| > 0 {
      assert base[0] == pre[0];
      if |base| >= 15 { assert base[..8][0] == base[0]; }
    } else {
      assert base[|g.day|] == text[|g.day|];
      if |base| >= 15 { assert base[..8][|g.day|] == '-'; }
    }
  }

  /** A name carrying the day-first text after a prefix without digits, and
      in which the camera pattern matches nowhere, is read by recognizer 4,
      at the first position the pattern matches. */
  lemma {:induction false} PlainDayFirstNameDate(pre: string, g: Groups, tail: string, ext: string)
    requires g.WellFormed() && PlainExtension(ext)
    requires NoDotOrSlash(pre) && NoDotOrSlash(tail)
    requires Search(CameraPattern, pre + DayFirstText(g) + tail, 0).None?
    requires forall k :: 0 <= k < |pre| ==> !IsDigit(pre[k])
    requires |pre| >= 4 ==> pre[..4] != "IMG_"
    ensures FromFilename(pre + DayFirstText(g) + tail + ext) == if g.Denoted().Valid() then Some(g.Denoted()) else None
  {
    var base := pre + DayFirstText(g) + tail;
    var text := DayFirstText(g);
    DayFirstTextPlain(g);
    NoDotOrSlashConcat(pre, text);
    NoDotOrSlashConcat(pre + text, tail);
    assert base[|pre|] == text[0];
    StripPlainExtension(base, ext);
    PlainPrefixGuards(pre, g, tail);
    forall k | 0 <= k < |pre| ensures MatchAt(DayFirstPattern, base, k).None? {
      assert base[k] == pre[k];
    }
    MatchDayFirstText(pre, g, tail);
    SearchFindsFirst(DayFirstPattern, base, |pre|, g);
    DayFirstDecides(base, Hit(|pre|, g));
    DayFirstDenotes(g);
  }

  /** An `IMG_` name of 15 to 17 characters leaves the seconds field empty, so
      the text ends in `:` and `strptime` rejects it; recognizer 1 still
      decides, so the result is `None`. (At 18 characters the seconds field
      has one digit, which `%S` accepts.) */
  lemma ImgShortNameFails(base: string)
    requires ImgGuard(base) && |base| <= 17
    ensures ImgParse(base) == None
  {
    var d, t := Slice(base, 4, 12), Slice(base, 13, 19);
    assert Slice(t, 4, 6) == "";
    var str := SlicedStamp(d, t);
    assert str == Slice(d, 0, 4) + ([':'] + (Slice(d, 4, 6) + ([':'] + (Slice(d, 6, 8) + (" "
                 + (Slice(t, 0, 2) + (":" + Slice(t, 2, 4)))))))) + ":";
    assert str[|str| - 1] == ':';
  }
}

=== FILE: filename_examples.dfy ===
/** Worked examples of `get_datetime_from_filename`, each derived from the
    general lemmas: the names the source's comments mention, zero padding,
    and the cases where a recognizer decides `None` on its own. */
module FilenameExamples {
  import opened Wrappers
  import opened PyStr
  import opened Calendar
  import opened Strptime
  import opened FilenameDates

  /** The values of a literal's year and two-digit fields. */
  lemma FieldValues(y: string, mo: string, d: string, h: string, mi: string, se: string)
    requires |y| == 4 && |mo| == 2 && |d| == 2 && |h| == 2 && |mi| == 2 && |se| == 2
    ensures DigitsValue(y) == 1000 * DigitVal(y[0]) + 100 * DigitVal(y[1]) + 10 * DigitVal(y[2]) + DigitVal(y[3])
    ensures forall t :: t in {mo, d, h, mi, se} ==> DigitsValue(t) == 10 * DigitVal(t[0]) + DigitVal(t[1])
  {
    DigitsValueOfFour(y);
    forall t | t in {mo, d, h, mi, se} ensures DigitsValue(t) == 10 * DigitVal(t[0]) + DigitVal(t[1]) {
      DigitsValueOfTwo(t);
    }
  }

  lemma ImgExampleName()
    ensures ImgName(DateTime(2023, 1, 1, 12, 34, 56)) + ".jpg" == "IMG_20230101_123456.jpg"
  {
    assert DateDigits(DateTime(2023, 1, 1, 12, 34, 56)) == "20230101";
    assert TimeDigits(DateTime(2023, 1, 1, 12, 34, 56)) == "123456";
  }

  lemma ImgExample()
    ensures FromFilename("IMG_20230101_123456.jpg") == Some(DateTime(2023, 1, 1, 12, 34, 56))
  {
    ImgExampleName();
    assert DateTime(2023, 1, 1, 12, 34, 56).Valid();
    ImgNameRoundTrip(DateTime(2023, 1, 1, 12, 34, 56), ".jpg");
  }

  lemma CameraExampleGroups(g: Groups)
    requires g == Groups("01", "01", "2024", "22", "16", "08")
    ensures g.WellFormed() && g.Denoted() == DateTime(2024, 1, 1, 22, 16, 8)
  {
    FieldValues("2024", "01", "01", "22", "16", "08");
  }

  lemma CameraExampleName(g: Groups)
    requires g == Groups("01", "01", "2024", "22", "16", "08")
    ensures CameraName("13", g, "163ms") + ".jpg" == "camera13_01-01-2024_22h16m08s163ms.jpg"
  {
    assert DayFirstText(g) == "01-01-2024_22h16m08s";
  }

  lemma CameraExample()
    ensures FromFilename("camera13_01-01-2024_22h16m08s163ms.jpg") == Some(DateTime(2024, 1, 1, 22, 16, 8))
  {
    var g := Groups("01", "01", "2024", "22", "16", "08");
    CameraExampleGroups(g);
    CameraExampleName(g);
    assert DateTime(2024, 1, 1, 22, 16, 8).Valid();
    CameraNameDate("13", g, "163ms", ".jpg");
  }

  lemma Camera7Groups(g: Groups)
    requires g == Groups("05", "03", "2024", "09", "15", "30")
    ensures g.WellFormed() && g.Denoted() == DateTime(2024, 3, 5, 9, 15, 30)
  {
    FieldValues("2024", "03", "05", "09", "15", "30");
  }

  lemma Camera7Name(g: Groups)
    requires g == Groups("05", "03", "2024", "09", "15", "30")
    ensures CameraName("7", g, "120ms") + ".jpg" == "camera7_05-03-2024_09h15m30s120ms.jpg"
  {
    assert DayFirstText(g) == "05-03-2024_09h15m30s";
  }

  /** Day and month are swapped into year-month-day order. */
  lemma Camera7Example()
    ensures FromFilename("camera7_05-03-2024_09h15m30s120ms.jpg") == Some(DateTime(2024, 3, 5, 9, 15, 30))
  {
    var g := Groups("05", "03", "2024", "09", "15", "30");
    Camera7Groups(g);
    Camera7Name(g);
    assert DateTime(2024, 3, 5, 9, 15, 30).Valid();
    CameraNameDate("7", g, "120ms", ".jpg");
  }

  lemma PaddingGroups(g: Groups)
    requires g == Groups("1", "2", "2024", "8", "5", "7")
    ensures g.WellFormed() && g.Denoted() == DateTime(2024, 2, 1, 8, 5, 7)
    ensures CameraName("1", g, "") + ".png" == "camera1_1-2-2024_8h5m7s.png"
  {
    DigitsValueOfFour("2024");
    assert DayFirstText(g) == "1-2-2024_8h5m7s";
  }

  /** One-digit fields are zero-padded before parsing. */
  lemma PaddingExample()
    ensures FromFilename("camera1_1-2-2024_8h5m7s.png") == Some(DateTime(2024, 2, 1, 8, 5, 7))
  {
    var g := Groups("1", "2", "2024", "8", "5", "7");
    PaddingGroups(g);
    assert DateTime(2024, 2, 1, 8, 5, 7).Valid();
    CameraNameDate("1", g, "", ".png");
  }

  lemma GenericGroups(g: Groups)
    requires g == Groups("01", "12", "2024", "08", "36", "46")
    ensures g.WellFormed() && g.Denoted() == DateTime(2024, 12, 1, 8, 36, 46)
  {
    FieldValues("2024", "12", "01", "08", "36", "46");
  }

  lemma GenericName(g: Groups)
    requires g == Groups("01", "12", "2024", "08", "36", "46")
    ensures "Главная дорога_" + DayFirstText(g) + "683ms" + ".jpg" == "Главная дорога_01-12-2024_08h36m46s683ms.jpg"
  {
    assert DayFirstText(g) == "01-12-2024_08h36m46s";
  }

  lemma GenericPrefix(pre: string)
    requires pre == "Главная дорога_"
    ensures NoDotOrSlash(pre) && 'c' !in pre && (forall k :: 0 <= k < |pre| ==> !IsDigit(pre[k]))
    ensures |pre| >= 4 && pre[..4] != "IMG_"
  {
    assert pre[0] != 'I';
  }

  /** Recognizer 4 finds the day-first text after an arbitrary (here Cyrillic) prefix. */
  lemma GenericExample()
    ensures FromFilename("Главная дорога_01-12-2024_08h36m46s683ms.jpg") == Some(DateTime(2024, 12, 1, 8, 36, 46))
  {
    var g := Groups("01", "12", "2024", "08", "36", "46");
    GenericGroups(g);
    GenericName(g);
    var pre := "Главная дорога_";
    GenericPrefix(pre);
    assert DateTime(2024, 12, 1, 8, 36, 46).Valid();
    DayFirstTextPlain(g);
    assert 'c' !in pre + DayFirstText(g) + "683ms";
    NoCameraAnywhere(pre + DayFirstText(g) + "683ms");
    PlainDayFirstNameDate(pre, g, "683ms", ".jpg");
  }

  // Recognizers 1 and 2 decide on their guard alone.

  /** An `IMG_` name built from a date part and a time part (the time part may run on). */
  lemma ImgParts(d: string, t: string, ext: string)
    requires |d| == 8 && |t| >= 2 && NoDotOrSlash(d) && NoDotOrSlash(t) && PlainExtension(ext)
    ensures FromFilename("IMG_" + d + "_" + t + ext) == ParseDateTime(SlicedStamp(d, Slice(t, 0, 6)), ':')
  {
    var base := "IMG_" + d + "_" + t;
    assert NoDotOrSlash("IMG_");
    NoDotOrSlashConcat("IMG_", d);
    NoDotOrSlashConcat("IMG_" + d, "_");
    NoDotOrSlashConcat("IMG_" + d + "_", t);
    StripPlainExtension(base, ext);
    assert base[..4] == "IMG_";
    assert ImgGuard(base);
    assert Slice(base, 4, 12) == d;
    assert Slice(base, 13, 19) == Slice(t, 0, 6);
  }

  /** A 17-character `IMG_` name: recognizer 1 applies, its seconds field is
      empty, and the answer is `None`. */
  lemma ImgShortExample()
    ensures FromFilename("IMG_20230101_1234.jpg") == None
  {
    var base := "IMG_20230101_1234";
    assert base + ".jpg" == "IMG_20230101_1234.jpg";
    assert PlainStem(base);
    StripPlainExtension(base, ".jpg");
    assert ImgGuard(base) by { assert base[..4] == "IMG_"; }
    ImgShortNameFails(base);
  }

  lemma Img18Stamp()
    ensures SlicedStamp("20230101", Slice("12345", 0, 6)) == FixedWidth("2023", "01", "01", "12", "34", "5", ':')
  {
    assert Slice("12345", 0, 6) == "12345";
  }

  lemma OneDigitValue(s: string)
    requires |s| == 1
    ensures DigitsValue(s) == DigitVal(s[0])
  {
    assert s[..0] == [];
  }

  lemma Img18Values(dt: DateTime)
    requires dt == DateTime(DigitsValue("2023"), DigitsValue("01"), DigitsValue("01"),
                            DigitsValue("12"), DigitsValue("34"), DigitsValue("5"))
    ensures dt == DateTime(2023, 1, 1, 12, 34, 5) && dt.Valid()
  {
    FieldValues("2023", "01", "01", "12", "34", "00");
    OneDigitValue("5");
  }

  lemma Img18Parse()
    ensures ParseDateTime(FixedWidth("2023", "01", "01", "12", "34", "5", ':'), ':') == Some(DateTime(2023, 1, 1, 12, 34, 5))
  {
    ParseFixedWidth("2023", "01", "01", "12", "34", "5", ':');
    Img18Values(DateTime(DigitsValue("2023"), DigitsValue("01"), DigitsValue("01"),
                         DigitsValue("12"), DigitsValue("34"), DigitsValue("5")));
  }

  /** An 18-character `IMG_` name: the one-digit seconds field is accepted by `%S`. */
  lemma Img18Example()
    ensures FromFilename("IMG_20230101_12345.jpg") == Some(DateTime(2023, 1, 1, 12, 34, 5))
  {
    assert "IMG_" + "20230101" + "_" + "12345" + ".jpg" == "IMG_20230101_12345.jpg";
    ImgParts("20230101", "12345", ".jpg");
    Img18Stamp();
    Img18Parse();
  }

  lemma Month13Stamp(t: string)
    requires |t| >= 6 && t[..6] == "123456"
    ensures SlicedStamp("20231301", Slice(t, 0, 6)) == FixedWidth("2023", "13", "01", "12", "34", "56", ':')
  {
    assert Slice(t, 0, 6) == "123456";
  }

  lemma Month13Parse()
    ensures ParseDateTime(FixedWidth("2023", "13", "01", "12", "34", "56", ':'), ':') == None
  {
    FieldValues("2023", "13", "01", "12", "34", "56");
    ParseFixedWidth("2023", "13", "01", "12", "34", "56", ':');
  }

  /** Recognizer 1 rejects month 13 whatever follows the seconds field. */
  lemma Month13Name(t: string)
    requires |t| >= 6 && t[..6] == "123456" && NoDotOrSlash(t)
    ensures FromFilename("IMG_" + "20231301" + "_" + t + ".jpg") == None
  {
    assert NoDotOrSlash("20231301");
    ImgParts("20231301", t, ".jpg");
    Month13Stamp(t);
    Month13Parse();
  }

  lemma CameraNamePlain(n: string, g: Groups, tail: string)
    requires AllDigits(n) && g.WellFormed() && NoDotOrSlash(tail)
    ensures NoDotOrSlash("123456_" + CameraName(n, g, tail))
  {
    var p := "123456_camera" + n + "_";
    assert NoDotOrSlash(p) by {
      forall k | 0 <= k < |p| ensures p[k] != '.' && p[k] != '/' {
        if 13 <= k < 13 + |n| { assert p[k] == n[k - 13]; }
      }
    }
    DayFirstTextPlain(g);
    NoDotOrSlashConcat(p, DayFirstText(g));
    NoDotOrSlashConcat(p + DayFirstText(g), tail);
    assert "123456_" + CameraName(n, g, tail) == p + DayFirstText(g) + tail;
  }

  /** Recognizer 1 decides: an `IMG_` name with month 13 gives `None` even
      when the rest of the name is a camera name that gives a date on its own. */
  lemma ImgDecidesOverCamera(n: string, g: Groups, tail: string)
    requires AllDigits(n) && g.WellFormed() && g.Denoted().Valid() && NoDotOrSlash(tail)
    ensures FromFilename(CameraName(n, g, tail) + ".jpg") == Some(g.Denoted())
    ensures FromFilename("IMG_" + "20231301" + "_" + ("123456_" + CameraName(n, g, tail)) + ".jpg") == None
  {
    CameraNameDate(n, g, tail, ".jpg");
    CameraNamePlain(n, g, tail);
    var t := "123456_" + CameraName(n, g, tail);
    assert t[..6] == "123456";
    Month13Name(t);
  }

  lemma CompactHour25Stamp(base: string)
    requires base == "20230101_253000"
    ensures CompactGuard(base) && !ImgGuard(base)
    ensures SlicedStamp(base[..8], base[9..15]) == FixedWidth("2023", "01", "01", "25", "30", "00", ':')
  {
    assert base[..8] == "20230101";
    assert AllDigits(base[..8]);
    assert base[..4][0] == '2';
    assert base[9..15] == "253000";
  }

  lemma Hour25Parse()
    ensures ParseDateTime(FixedWidth("2023", "01", "01", "25", "30", "00", ':'), ':') == None
  {
    FieldValues("2023", "01", "01", "25", "30", "00");
    ParseFixedWidth("2023", "01", "01", "25", "30", "00", ':');
  }

  lemma CompactHour25Name()
    ensures FromFilename("20230101_253000.jpg") == CompactParse("20230101_253000")
  {
    var base := "20230101_253000";
    assert base + ".jpg" == "20230101_253000.jpg";
    assert PlainStem(base);
    StripPlainExtension(base, ".jpg");
    CompactHour25Stamp(base);
  }

  /** Hour 25 in a `YYYYMMDD_HHMMSS` name gives `None`. */
  lemma CompactDecidesExample()
    ensures FromFilename("20230101_253000.jpg") == None
  {
    CompactHour25Name();
    CompactHour25Stamp("20230101_253000");
    Hour25Parse();
  }
}

=== FILE: layout.dfy ===
/** Where the date text and its background frame go on the image
    (`add_datetime_watermark`). Text width and height are measured by the font
    library and enter the model as inputs; everything else is integer
    arithmetic. Python's `//` floors, and so does Dafny's `/` when the divisor
    is positive, so `/ 2` and `/ 4` below are the source's `// 2` and `// 4`
    for negative operands too. */
module Layout {

  /** The seven position names the source tests for. */
  datatype Position = TopLeft | TopRight | BottomLeft | Center | CenterTop | CenterBottom | BottomRight

  function PositionName(p: Position): string
  {
    match p
    case TopLeft => "top-left"
    case TopRight => "top-right"
    case BottomLeft => "bottom-left"
    case Center => "center"
    case CenterTop => "center-top"
    case CenterBottom => "center-bottom"
    case BottomRight => "bottom-right"
  }

  /** The `if`/`elif` chain on `position`: any name it does not list falls
      into the final `else`, which is bottom-right. */
  function ParsePosition(name: string): (p: Position)
    ensures p != BottomRight ==> PositionName(p) == name
  {
    if name == "top-left" then TopLeft
    else if name == "top-right" then TopRight
    else if name == "bottom-left" then BottomLeft
    else if name == "center" then Center
    else if name == "center-top" then CenterTop
    else if name == "center-bottom" then CenterBottom
    else BottomRight
  }

  /** Every position is selected by its own name. */
  lemma PositionRoundTrip(p: Position)
    ensures ParsePosition(PositionName(p)) == p
  {
  }

  /** A name that is not one of the seven selects bottom-right. */
  lemma UnknownPosition(name: string)
    requires forall q :: PositionName(q) != name
    ensures ParsePosition(name) == BottomRight
  {
    var p := ParsePosition(name);
    assert PositionName(p) != name;
  }

  /** Names the source does not know, such as `center-left`, mean bottom-right. */
  lemma UnknownPositionExample()
    ensures ParsePosition("center-left") == BottomRight
    ensures ParsePosition("Top-Left") == BottomRight
  {
    assert "center-left" != "center";
    assert "Top-Left"[0] != "top-left"[0];
  }

  /** How a position aligns the text along one axis. */
  datatype Align = Start | Middle | End

  function Horizontal(p: Position): Align
  {
    match p
    case TopLeft | BottomLeft => Start
    case Center | CenterTop | CenterBottom => Middle
    case TopRight | BottomRight => End
  }

  function Vertical(p: Position): Align
  {
    match p
    case TopLeft | TopRight | CenterTop => Start
    case Center => Middle
    case BottomLeft | CenterBottom | BottomRight => End
  }

  /** Reference description of an aligned coordinate: flush with the margin
      at the start, flush with the margin at the end, or centred with the odd
      pixel (if any) after the text. No clamping: the coordinate may be
      negative when the text is larger than the image. */
  predicate Aligned(a: Align, coord: int, extent: int, size: int, margin: int)
  {
    match a
    case Start => coord == margin
    case End => coord + size + margin == extent
    case Middle => 2 * coord <= extent - size <= 2 * coord + 1
  }

  /** The text origin `(x, y)` the source computes. */
  function Origin(p: Position, w: int, h: int, tw: int, th: int, mx: int, my: int): (xy: (int, int))
    ensures Aligned(Horizontal(p), xy.0, w, tw, mx)
    ensures Aligned(Vertical(p), xy.1, h, th, my)
  {
    match p
    case TopLeft => (mx, my)
    case TopRight => (w - tw - mx, my)
    case BottomLeft => (mx, h - th - my)
    case Center => ((w - tw) / 2, (h - th) / 2)
    case CenterTop => ((w - tw) / 2, my)
    case CenterBottom => ((w - tw) / 2, h - th - my)
    case BottomRight => (w - tw - mx, h - th - my)
  }

  /** An alignment fixes the coordinate: there is only one aligned value. */
  lemma AlignedUnique(a: Align, c1: int, c2: int, extent: int, size: int, margin: int)
    requires Aligned(a, c1, extent, size, margin) && Aligned(a, c2, extent, size, margin)
    ensures c1 == c2
  {
  }

  /** The origin is exactly the point aligned as the position says, on both axes. */
  lemma OriginCharacterized(p: Position, w: int, h: int, tw: int, th: int, mx: int, my: int, x: int, y: int)
    ensures (x, y) == Origin(p, w, h, tw, th, mx, my)
        <==> Aligned(Horizontal(p), x, w, tw, mx) && Aligned(Vertical(p), y, h, th, my)
  {
    var o := Origin(p, w, h, tw, th, mx, my);
    if Aligned(Horizontal(p), x, w, tw, mx) && Aligned(Vertical(p), y, h, th, my) {
      AlignedUnique(Horizontal(p), x, o.0, w, tw, mx);
      AlignedUnique(Vertical(p), y, o.1, h, th, my);
    }
  }

  /** The background rectangle `[left, top, right, bottom]` passed to `draw.rectangle`. */
  datatype Rect = Rect(left: int, top: int, right: int, bottom: int)

  /** Space between the text and the frame on every side. */
  const Padding: int := 10

  /** The frame is pushed down by a quarter of the font size (floored). */
  function FrameShift(fontSize: int): (d: int)
    ensures 4 * d <= fontSize < 4 * d + 4
    ensures fontSize >= 0 <==> d >= 0
  {
    fontSize / 4
  }

  /** The text box padded by 10 pixels on each side, then moved down by the shift. */
  function Frame(x: int, y: int, tw: int, th: int, fontSize: int): (r: Rect)
    ensures r.right - r.left == tw + 2 * Padding && r.bottom - r.top == th + 2 * Padding
    ensures r.left == x - Padding && r.right == x + tw + Padding
    ensures r.top - (y - Padding) == FrameShift(fontSize) && r.bottom - (y + th + Padding) == FrameShift(fontSize)
  {
    var d := fontSize / 4;
    Rect(x - Padding, y - Padding + d, x + tw + Padding, y + th + Padding + d)
  }

  /** For a non-negative font size the frame never starts above the padded text box. */
  lemma FrameBelowPaddedText(x: int, y: int, tw: int, th: int, fontSize: int)
    requires fontSize >= 0
    ensures Frame(x, y, tw, th, fontSize).top >= y - Padding
    ensures Frame(x, y, tw, th, fontSize).bottom >= y + th + Padding
  {
  }

  /** The whole placement: text origin and frame for a position name. */
  datatype Placement = Placement(x: int, y: int, frame: Rect)

  function Place(name: string, w: int, h: int, tw: int, th: int, mx: int, my: int, fontSize: int): (pl: Placement)
    ensures Aligned(Horizontal(ParsePosition(name)), pl.x, w, tw, mx)
    ensures Aligned(Vertical(ParsePosition(name)), pl.y, h, th, my)
    ensures pl.frame == Frame(pl.x, pl.y, tw, th, fontSize)
  {
    var (x, y) := Origin(ParsePosition(name), w, h, tw, th, mx, my);
    Placement(x, y, Frame(x, y, tw, th, fontSize))
  }

  /** A 1000 by 1000 image, a 100 by 20 text and 10-pixel margins. */
  lemma PlacementExample()
    ensures Origin(TopLeft, 1000, 1000, 100, 20, 10, 10) == (10, 10)
    ensures Origin(BottomRight, 1000, 1000, 100, 20, 10, 10) == (890, 970)
    ensures Origin(Center, 1000, 1000, 100, 20, 10, 10) == (450, 490)
  {
  }

  /** With a 30-point font the frame around the bottom-right text is shifted down by 7. */
  lemma FrameExample()
    ensures Frame(890, 970, 100, 20, 30) == Rect(880, 967, 1000, 1007)
  {
  }
}

=== FILE: pystr.dfy ===
/** The handful of Python string and `posixpath` operations the date-stamping
    code relies on, with Python's semantics written out: clamped slicing,
    `zfill`, `lower`, `endswith`, `os.path.splitext` and `os.path.join`. */
module PyStr {

  /** ASCII decimal digit (see README: other Unicode digits are not modelled). */
  predicate IsDigit(c: char) {
    '0' <= c <= '9'
  }

  function DigitVal(c: char): (v: nat)
    ensures v < 10
    ensures IsDigit(c) ==> v == c as int - '0' as int
  {
    if IsDigit(c) then c as int - '0' as int else 0
  }

  function DigitChar(d: nat): (c: char)
    requires d < 10
    ensures IsDigit(c) && DigitVal(c) == d
  {
    ('0' as int + d) as char
  }

  /** Python `str.isdigit()` on ASCII: non-empty and every character a digit. */
  predicate AllDigits(s: string) {
    |s| > 0 && forall i :: 0 <= i < |s| ==> IsDigit(s[i])
  }

  /** A character matched by `\s` in a Python `str` regular expression
      (the characters for which `str.isspace()` holds). */
  predicate IsSpace(c: char) {
    var n := c as int;
    (9 <= n <= 13) || (28 <= n <= 32) || n == 0x85 || n == 0xA0 || n == 0x1680
    || (0x2000 <= n <= 0x200A) || n == 0x2028 || n == 0x2029 || n == 0x202F
    || n == 0x205F || n == 0x3000
  }

  /** Value of a string of decimal digits, most significant first. */
  function DigitsValue(s: string): nat
  {
    if |s| == 0 then 0 else 10 * DigitsValue(s[..|s| - 1]) + DigitVal(s[|s| - 1])
  }

  lemma DigitsValueOfTwo(s: string)
    requires |s| == 2
    ensures DigitsValue(s) == 10 * DigitVal(s[0]) + DigitVal(s[1])
  {
    var p := s[..1];
    assert p[..0] == [] && p[0] == s[0];
    assert DigitsValue(p) == DigitVal(s[0]);
  }

  lemma DigitsValueOfFour(s: string)
    requires |s| == 4
    ensures DigitsValue(s) == 1000 * DigitVal(s[0]) + 100 * DigitVal(s[1]) + 10 * DigitVal(s[2]) + DigitVal(s[3])
  {
    var p := s[..3];
    assert p[..2] == s[..2];
    DigitsValueOfTwo(s[..2]);
  }

  function Pow10(n: nat): (r: nat)
    ensures r >= 1
  {
    if n == 0 then 1 else 10 * Pow10(n - 1)
  }

  /** The `w` low decimal digits of `n`, zero-padded: the rendering of `%04d`/`%02d`. */
  function Digits(n: nat, w: nat): (s: string)
    ensures |s| == w
    ensures forall i :: 0 <= i < |s| ==> IsDigit(s[i])
  {
    if w == 0 then "" else Digits(n / 10, w - 1) + [DigitChar(n % 10)]
  }

  lemma {:induction false} DigitsRoundTrip(n: nat, w: nat)
    requires n < Pow10(w)
    ensures DigitsValue(Digits(n, w)) == n
  {
    if w > 0 {
      var s := Digits(n, w);
      assert s[..|s| - 1] == Digits(n / 10, w - 1);
      DigitsRoundTrip(n / 10, w - 1);
    }
  }

  /** Python slice `s[i:j]` for non-negative bounds: both ends clamp to `len(s)`. */
  function Slice(s: string, i: nat, j: nat): (r: string)
    ensures |r| == (if j <= i || i >= |s| then 0 else (if j <= |s| then j else |s|) - i)
    ensures forall k :: 0 <= k < |r| ==> r[k] == s[i + k]
  {
    var hi := if j <= |s| then j else |s|;
    if i >= hi then "" else s[i..hi]
  }

  /** Python `str.zfill(2)` on an unsigned digit string. */
  function Zfill2(s: string): (r: string)
    ensures |s| >= 2 ==> r == s
    ensures |s| < 2 ==> |r| == 2 && r[2 - |s|..] == s
    ensures forall k :: 0 <= k < 2 - |s| ==> r[k] == '0'
  {
    if |s| >= 2 then s else seq(2 - |s|, _ => '0') + s
  }

  function LowerChar(c: char): (d: char)
    ensures 'A' <= c <= 'Z' ==> d as int == c as int + 32
    ensures !('A' <= c <= 'Z') ==> d == c
  {
    if 'A' <= c <= 'Z' then (c as int + 32) as char else c
  }

  /** Python `str.lower()`, for ASCII letters (see README). */
  function Lower(s: string): (r: string)
    ensures |r| == |s|
    ensures forall i :: 0 <= i < |s| ==> r[i] == LowerChar(s[i])
  {
    seq(|s|, i requires 0 <= i < |s| => LowerChar(s[i]))
  }

  lemma LowerIdempotent(s: string)
    ensures Lower(Lower(s)) == Lower(s)
  {
  }

  lemma LowerConcat(a: string, b: string)
    ensures Lower(a + b) == Lower(a) + Lower(b)
  {
  }

  predicate StartsWith(s: string, p: string) {
    |p| <= |s| && s[..|p|] == p
  }

  /** Python `str.endswith(suffix)`. */
  predicate EndsWith(s: string, suffix: string) {
    |suffix| <= |s| && s[|s| - |suffix|..] == suffix
  }

  /** Index of the last occurrence of `c`, or -1 (Python `str.rfind`). */
  function RFind(s: string, c: char): (r: int)
    ensures -1 <= r < |s|
    ensures r >= 0 ==> s[r] == c
    ensures forall k :: r < k < |s| ==> s[k] != c
  {
    if |s| == 0 then -1
    else if s[|s| - 1] == c then |s| - 1
    else RFind(s[..|s| - 1], c)
  }

  /** Some character of `s[lo..hi]` is not a dot. */
  predicate HasNonDot(s: string, lo: nat, hi: nat)
    requires lo <= hi <= |s|
  {
    exists k :: lo <= k < hi && s[k] != '.'
  }

  /** `posixpath.splitext(p)[0]`: the path without its extension. The extension
      starts at the last dot of the last component, unless every character
      before that dot in the component is a dot (so `.profile` has none). */
  function StripExtension(p: string): (root: string)
    ensures |root| <= |p| && p[..|root|] == root
    ensures root != p ==> p[|root|] == '.'
  {
    var sepIndex := RFind(p, '/');
    var dotIndex := RFind(p, '.');
    if dotIndex > sepIndex && HasNonDot(p, sepIndex + 1, dotIndex) then p[..dotIndex] else p
  }

  /** `posixpath.join(a, b)` for two components. */
  function Join(a: string, b: string): (r: string)
    ensures EndsWith(r, b)
  {
    if StartsWith(b, "/") then b
    else if a == "" || EndsWith(a, "/") then a + b
    else a + "/" + b
  }
}

=== FILE: resolution.dfy ===
/** Where a photo's timestamp comes from. Three sources are tried in an order
    that depends on the entry point, and the first one that gives a datetime
    wins: the file name, the EXIF `DateTimeOriginal` tag, and the file's
    creation time. The tag's text and the creation time are read by library
    calls, so they enter the model as inputs. */
module Resolution {
  import opened Wrappers
  import opened PyStr
  import opened Calendar
  import opened Strptime
  import opened FilenameDates

  /** `get_datetime_from_exif` after the tag has been read: no tag gives
      `None`; otherwise the tag text is parsed as `%Y:%m:%d %H:%M:%S`, and a
      parse error gives `None`. */
  function ExifDate(tag: Option<string>): (r: Option<DateTime>)
    ensures tag.None? ==> r.None?
    ensures r.Some? ==> r.value.Valid()
    ensures r.Some? ==> |tag.value| >= 5 && tag.value[4] == ':' && r.value.year == DigitsValue(tag.value[..4])
  {
    match tag
    case None => None
    case Some(text) => ParseDateTime(text, ':')
  }

  /** A tag written in the fixed EXIF layout is read back exactly. */
  lemma ExifRoundTrip(dt: DateTime)
    requires dt.Valid()
    ensures ExifDate(Some(Canonical(dt, ':'))) == Some(dt)
  {
    CanonicalRoundTrip(dt, ':');
  }

  /** A tag whose month, day, hour, minute and second are written without
      zero padding is read like its padded form. */
  lemma ExifOneDigitFields(y: string, mo: char, d: char, h: char, mi: char, se: char)
    requires |y| == 4 && AllDigits(y)
    requires '1' <= mo <= '9' && '1' <= d <= '9' && IsDigit(h) && IsDigit(mi) && IsDigit(se)
    ensures var dt := DateTime(DigitsValue(y), DigitVal(mo), DigitVal(d), DigitVal(h), DigitVal(mi), DigitVal(se));
            ExifDate(Some(y + [':', mo, ':', d, ' ', h, ':', mi, ':', se])) == if dt.Valid() then Some(dt) else None
  {
    ParseOneDigitFields(y, mo, d, h, mi, se, ':');
  }

  /** A tag in the dash layout of the stamp text is not accepted. */
  lemma ExifRejectsStampText(dt: DateTime)
    ensures ExifDate(Some(StampText(dt))) == None
  {
    var s := StampText(dt);
    assert s[4] == '-';
  }

  /** The two entry points: `process_images` (flat) and
      `process_images_with_structure` (tree). */
  datatype Mode = Flat | Tree

  /** What is known about one file besides its name. */
  datatype Sources = Sources(exifTag: Option<string>, creationTime: Option<DateTime>)

  /** Reference definition: the first candidate holding a value. */
  function FirstSome(cands: seq<Option<DateTime>>): Option<DateTime>
  {
    if |cands| == 0 then None
    else if cands[0].Some? then cands[0]
    else FirstSome(cands[1..])
  }

  /** `FirstSome` returns candidate `i` exactly when every earlier one is empty. */
  lemma {:induction false} FirstSomeIsFirst(cands: seq<Option<DateTime>>, i: nat)
    requires i < |cands| && cands[i].Some?
    requires forall k :: 0 <= k < i ==> cands[k].None?
    ensures FirstSome(cands) == cands[i]
  {
    if i > 0 {
      assert cands[0].None?;
      FirstSomeIsFirst(cands[1..], i - 1);
    }
  }

  /** `FirstSome` is `None` exactly when every candidate is. */
  lemma {:induction false} FirstSomeNone(cands: seq<Option<DateTime>>)
    ensures FirstSome(cands).None? <==> forall k :: 0 <= k < |cands| ==> cands[k].None?
  {
    if |cands| > 0 {
      FirstSomeNone(cands[1..]);
      if cands[0].None? {
        assert forall k :: 1 <= k < |cands| ==> cands[k] == cands[1..][k - 1];
      }
    }
  }

  /** The three candidates in the order the entry point tries them. */
  function Candidates(mode: Mode, filename: string, src: Sources): (c: seq<Option<DateTime>>)
    // How the two orders relate is stated by `CandidateOrders`; their use, by `ResolveIsFirstSome`.
    ensures |c| == 3 && c[2] == src.creationTime
    ensures mode == Flat ==> c[0] == ExifDate(src.exifTag) && c[1] == FromFilename(filename)
    ensures mode == Tree ==> c[0] == FromFilename(filename) && c[1] == ExifDate(src.exifTag)
  {
    match mode
    case Flat => [ExifDate(src.exifTag), FromFilename(filename), src.creationTime]
    case Tree => [FromFilename(filename), ExifDate(src.exifTag), src.creationTime]
  }

  /** The resolution chain as the source writes it: each later source is
      consulted only while the result so far is `None`. */
  function Resolve(mode: Mode, filename: string, src: Sources): (r: Option<DateTime>)
    ensures r.Some? ==> r == FromFilename(filename) || r == ExifDate(src.exifTag) || r == src.creationTime
    ensures src.creationTime.Some? ==> r.Some?
    ensures mode == Tree && FromFilename(filename).Some? ==> r == FromFilename(filename)
    ensures mode == Flat && ExifDate(src.exifTag).Some? ==> r == ExifDate(src.exifTag)
  {
    match mode
    case Flat => ExifDate(src.exifTag).OrElse(FromFilename(filename)).OrElse(src.creationTime)
    case Tree => FromFilename(filename).OrElse(ExifDate(src.exifTag)).OrElse(src.creationTime)
  }

  /** The chain returns the first candidate that holds a value. */
  lemma ResolveIsFirstSome(mode: Mode, filename: string, src: Sources)
    ensures Resolve(mode, filename, src) == FirstSome(Candidates(mode, filename, src))
  {
    var c := Candidates(mode, filename, src);
    assert c[1..][1..][1..] == [];
    assert FirstSome(c[1..][1..]) == c[2].OrElse(None);
    assert FirstSome(c[1..]) == c[1].OrElse(c[2]);
  }

  /** The two orders hold the same three sources: the first two swapped, the
      creation time last in both. */
  lemma CandidateOrders(filename: string, src: Sources)
    ensures var flat, tree := Candidates(Flat, filename, src), Candidates(Tree, filename, src);
            flat == [tree[1], tree[0], tree[2]] && multiset(flat) == multiset(tree)
  {
    var tree := Candidates(Tree, filename, src);
    SwapFirstTwo(tree[0], tree[1], tree[2]);
  }

  lemma SwapFirstTwo<T>(a: T, b: T, c: T)
    ensures multiset([b, a, c]) == multiset([a, b, c])
  {
    assert [b, a, c] == [b] + [a] + [c] && [a, b, c] == [a] + [b] + [c];
  }

  /** No date at all exactly when none of the three sources gives one. */
  lemma ResolveNone(mode: Mode, filename: string, src: Sources)
    ensures Resolve(mode, filename, src).None?
        <==> FromFilename(filename).None? && ExifDate(src.exifTag).None? && src.creationTime.None?
  {
    ResolveIsFirstSome(mode, filename, src);
    FirstSomeNone(Candidates(mode, filename, src));
  }

  /** Only the creation time can contribute an invalid datetime. */
  lemma ResolveValid(mode: Mode, filename: string, src: Sources)
    requires src.creationTime.Some? ==> src.creationTime.value.Valid()
    ensures Resolve(mode, filename, src).Some? ==> Resolve(mode, filename, src).value.Valid()
  {
  }

  /** The two entry points disagree exactly when both the name and the EXIF
      tag give a datetime and these differ; the flat mode then takes the tag's
      and the tree mode the name's. */
  lemma ModesDisagree(filename: string, src: Sources)
    ensures Resolve(Flat, filename, src) != Resolve(Tree, filename, src)
        <==> FromFilename(filename).Some? && ExifDate(src.exifTag).Some?
             && FromFilename(filename) != ExifDate(src.exifTag)
    ensures FromFilename(filename).Some? && ExifDate(src.exifTag).Some? ==>
              Resolve(Flat, filename, src) == ExifDate(src.exifTag)
              && Resolve(Tree, filename, src) == FromFilename(filename)
  {
  }

  /** With no usable name and no tag, both modes fall back to the creation time. */
  lemma CreationTimeFallback(filename: string, src: Sources, mode: Mode)
    requires FromFilename(filename).None? && src.exifTag.None?
    ensures Resolve(mode, filename, src) == src.creationTime
  {
  }
}

=== FILE: resolution_examples.dfy ===
/** Concrete EXIF tags and a file on which the two entry points disagree. */
module ResolutionExamples {
  import opened Wrappers
  import opened PyStr
  import opened Calendar
  import opened Strptime
  import opened FilenameExamples
  import opened Resolution

  lemma ExifExampleText()
    ensures FixedWidth("2024", "05", "06", "07", "08", "09", ':') == "2024:05:06 07:08:09"
  {
  }

  lemma ExifExampleParse()
    ensures ExifDate(Some(FixedWidth("2024", "05", "06", "07", "08", "09", ':'))) == Some(DateTime(2024, 5, 6, 7, 8, 9))
  {
    ExifExampleValues(DateTime(DigitsValue("2024"), DigitsValue("05"), DigitsValue("06"),
                               DigitsValue("07"), DigitsValue("08"), DigitsValue("09")));
    ParseFixedWidth("2024", "05", "06", "07", "08", "09", ':');
  }

  lemma ExifExampleValues(dt: DateTime)
    requires dt == DateTime(DigitsValue("2024"), DigitsValue("05"), DigitsValue("06"),
                            DigitsValue("07"), DigitsValue("08"), DigitsValue("09"))
    ensures dt == DateTime(2024, 5, 6, 7, 8, 9) && dt.Valid()
  {
    FieldValues("2024", "05", "06", "07", "08", "09");
  }

  /** The unpadded tag "2024:5:6 7:8:9" gives the same datetime as "2024:05:06 07:08:09". */
  lemma ExifUnpaddedExample()
    ensures ExifDate(Some("2024:5:6 7:8:9")) == Some(DateTime(2024, 5, 6, 7, 8, 9))
  {
    assert "2024:5:6 7:8:9" == "2024" + [':', '5', ':', '6', ' ', '7', ':', '8', ':', '9'];
    ExifOneDigitFields("2024", '5', '6', '7', '8', '9');
    UnpaddedValues(DateTime(DigitsValue("2024"), DigitVal('5'), DigitVal('6'), DigitVal('7'), DigitVal('8'), DigitVal('9')));
  }

  lemma UnpaddedValues(dt: DateTime)
    requires dt == DateTime(DigitsValue("2024"), DigitVal('5'), DigitVal('6'), DigitVal('7'), DigitVal('8'), DigitVal('9'))
    ensures dt == DateTime(2024, 5, 6, 7, 8, 9) && dt.Valid()
  {
    DigitsValueOfFour("2024");
  }

  /** The same file gets different stamps from the two entry points when its
      name and its EXIF tag disagree. */
  lemma ModesDisagreeExample(ctime: Option<DateTime>)
    ensures var src := Sources(Some("2024:05:06 07:08:09"), ctime);
            && Resolve(Flat, "IMG_20230101_123456.jpg", src) == Some(DateTime(2024, 5, 6, 7, 8, 9))
            && Resolve(Tree, "IMG_20230101_123456.jpg", src) == Some(DateTime(2023, 1, 1, 12, 34, 56))
  {
    ExifExampleText();
    ExifExampleParse();
    ImgExample();
  }
}

=== FILE: strptime.dfy ===
/** `datetime.strptime(s, '%Y<sep>%m<sep>%d %H:%M:%S')` as CPython's `_strptime`
    performs it: the format is turned into a regular expression whose fields
    accept one or two digits (`%d` also a space and one digit), the space
    becomes `\s+`, the match must consume the whole string ("unconverted data
    remains" otherwise), and the `datetime` constructor then rejects year 0,
    days past the end of the month and seconds 60 and 61. Every failure is a
    `ValueError`, which the callers swallow, so it is `None` here. */
module Strptime {
  import opened Wrappers
  import opened PyStr
  import opened Calendar

  /** The regex-matched fields after the four-digit `%Y`. */
  datatype Field = Month | Day | Hour | Minute | Second

  /** Smallest and largest value the field's regular expression can match. */
  function FieldMin(f: Field): nat {
    if f == Month || f == Day then 1 else 0
  }

  function FieldMax(f: Field): nat {
    match f
    case Month => 12
    case Day => 31
    case Hour => 23
    case Minute => 59
    case Second => 61
  }

  /** The two-character alternatives of the field's pattern:
      `%m` 1[0-2]|0[1-9], `%d` 3[01]|[12]\d|0[1-9]|' '[1-9], `%H` 2[0-3]|[01]\d,
      `%M` [0-5]\d, `%S` 6[01]|[0-5]\d. */
  predicate TwoCharAlt(f: Field, a: char, b: char) {
    match f
    case Month => (a == '1' && '0' <= b <= '2') || (a == '0' && '1' <= b <= '9')
    case Day =>
      || (a == '3' && '0' <= b <= '1')
      || ('1' <= a <= '2' && IsDigit(b))
      || (a == '0' && '1' <= b <= '9')
      || (a == ' ' && '1' <= b <= '9')
    case Hour => (a == '2' && '0' <= b <= '3') || ('0' <= a <= '1' && IsDigit(b))
    case Minute => '0' <= a <= '5' && IsDigit(b)
    case Second => (a == '6' && '0' <= b <= '1') || ('0' <= a <= '5' && IsDigit(b))
  }

  /** The one-character alternative: `[1-9]` for `%m` and `%d`, `\d` otherwise. */
  predicate OneCharAlt(f: Field, c: char) {
    if f == Month || f == Day then '1' <= c <= '9' else IsDigit(c)
  }

  /** `int()` of a two-character token (`int(' 7') == 7`). */
  function TokenValue(a: char, b: char): nat {
    if a == ' ' then DigitVal(b) else 10 * DigitVal(a) + DigitVal(b)
  }

  /** What must follow a field: a literal separator, or the `\s+` the format's space became. */
  datatype Delim = Literal(c: char) | Whitespace

  predicate IsDelim(d: Delim, c: char) {
    match d
    case Literal(x) => c == x
    case Whitespace => IsSpace(c)
  }

  /** A field's value and the text from its delimiter on. */
  datatype Scan = Scan(value: nat, rest: string)

  /** One field followed by its delimiter. The two-character alternatives are
      tried before the one-character one, as the regex orders them; because a
      delimiter is never a digit, at most one of them can be followed by it,
      so backtracking cannot choose differently. */
  function ScanField(f: Field, t: string, d: Delim): (r: Option<Scan>)
    ensures r.Some? ==> FieldMin(f) <= r.value.value <= FieldMax(f)
    ensures r.Some? ==> 1 <= |r.value.rest| < |t| && t[|t| - |r.value.rest|..] == r.value.rest
    ensures r.Some? ==> IsDelim(d, r.value.rest[0])
    ensures r.Some? ==> |t| - |r.value.rest| == 1 || |t| - |r.value.rest| == 2
    ensures r.Some? && |t| - |r.value.rest| == 2 ==> TwoCharAlt(f, t[0], t[1]) && r.value.value == TokenValue(t[0], t[1])
    ensures r.Some? && |t| - |r.value.rest| == 1 ==> OneCharAlt(f, t[0]) && r.value.value == DigitVal(t[0])
  {
    if |t| >= 3 && TwoCharAlt(f, t[0], t[1]) && IsDelim(d, t[2]) then
      Some(Scan(TokenValue(t[0], t[1]), t[2..]))
    else if |t| >= 2 && OneCharAlt(f, t[0]) && IsDelim(d, t[1]) then
      Some(Scan(DigitVal(t[0]), t[1..]))
    else None
  }

  /** The last field, `%S`: the regex takes the first alternative that
      matches and the rest of the string must then be empty. */
  function ScanSeconds(t: string): (r: Option<nat>)
    ensures r.Some? ==> r.value <= FieldMax(Second)
    ensures r.Some? <==> (|t| == 1 && IsDigit(t[0])) || (|t| == 2 && TwoCharAlt(Second, t[0], t[1]))
  {
    if |t| >= 2 && TwoCharAlt(Second, t[0], t[1]) then
      (if |t| == 2 then Some(TokenValue(t[0], t[1])) else None)
    else if |t| >= 1 && IsDigit(t[0]) then
      (if |t| == 1 then Some(DigitVal(t[0])) else None)
    else None
  }

  /** What `\s+` leaves: `t` without its leading whitespace. */
  function SkipSpaces(t: string): (r: string)
    ensures |r| <= |t| && t[|t| - |r|..] == r
    ensures |r| > 0 ==> !IsSpace(r[0])
    ensures forall k :: 0 <= k < |t| - |r| ==> IsSpace(t[k])
  {
    if |t| > 0 && IsSpace(t[0]) then SkipSpaces(t[1..]) else t
  }

  /** `datetime.strptime(s, '%Y<sep>%m<sep>%d %H:%M:%S')`, `None` for a `ValueError`. */
  function ParseDateTime(s: string, sep: char): (r: Option<DateTime>)
    ensures r.Some? ==> r.value.Valid()
    ensures r.Some? ==> |s| >= 5 && AllDigits(s[..4]) && r.value.year == DigitsValue(s[..4]) && s[4] == sep
    ensures r.Some? ==> IsDigit(s[|s| - 1])
  {
    if |s| < 5 || !AllDigits(s[..4]) || s[4] != sep then None
    else AfterYear(DigitsValue(s[..4]), s[5..], sep)
  }

  /** The remaining fields, one function per field so that each step can be reasoned about alone. */
  function AfterYear(y: nat, t: string, sep: char): (r: Option<DateTime>)
    ensures r.Some? ==> r.value.Valid() && r.value.year == y
    ensures r.Some? ==> |t| > 0 && IsDigit(t[|t| - 1])
  {
    match ScanField(Month, t, Literal(sep))
    case None => None
    case Some(mo) => AfterMonth(y, mo.value, mo.rest[1..])
  }

  function AfterMonth(y: nat, m: nat, t: string): (r: Option<DateTime>)
    ensures r.Some? ==> r.value.Valid() && r.value.year == y && r.value.month == m
    ensures r.Some? ==> |t| > 0 && IsDigit(t[|t| - 1])
  {
    match ScanField(Day, t, Whitespace)
    case None => None
    case Some(dd) => AfterDay(y, m, dd.value, SkipSpaces(dd.rest))
  }

  function AfterDay(y: nat, m: nat, d: nat, t: string): (r: Option<DateTime>)
    ensures r.Some? ==> r.value.Valid() && r.value.year == y && r.value.month == m && r.value.day == d
    ensures r.Some? ==> |t| > 0 && IsDigit(t[|t| - 1])
  {
    match ScanField(Hour, t, Literal(':'))
    case None => None
    case Some(hh) => AfterHour(y, m, d, hh.value, hh.rest[1..])
  }

  function AfterHour(y: nat, m: nat, d: nat, h: nat, t: string): (r: Option<DateTime>)
    ensures r.Some? ==> r.value.Valid() && r.value == r.value.(year := y, month := m, day := d, hour := h)
    ensures r.Some? ==> |t| > 0 && IsDigit(t[|t| - 1])
  {
    match ScanField(Minute, t, Literal(':'))
    case None => None
    case Some(mi) => AfterMinute(y, m, d, h, mi.value, mi.rest[1..])
  }

  /** `%S`, the end-of-string check, and the `datetime` constructor's range checks. */
  function AfterMinute(y: nat, m: nat, d: nat, h: nat, mi: nat, t: string): (r: Option<DateTime>)
    ensures r.Some? <==> ScanSeconds(t).Some? && DateTime(y, m, d, h, mi, ScanSeconds(t).value).Valid()
    ensures r.Some? ==> r.value == DateTime(y, m, d, h, mi, ScanSeconds(t).value)
  {
    match ScanSeconds(t)
    case None => None
    case Some(se) =>
      var dt := DateTime(y, m, d, h, mi, se);
      if dt.Valid() then Some(dt) else None
  }

  /** A two-digit field's alternatives accept exactly the field's value range. */
  lemma TwoDigitAlternatives(f: Field, a: char, b: char)
    requires IsDigit(a) && IsDigit(b)
    ensures TwoCharAlt(f, a, b) <==> FieldMin(f) <= TokenValue(a, b) <= FieldMax(f)
  {
  }

  /** A two-digit token followed by its delimiter scans to its value when in range, else fails. */
  lemma ScanTwoDigits(f: Field, a: char, b: char, rest: string, d: Delim)
    requires IsDigit(a) && IsDigit(b) && !IsDelim(d, b)
    requires |rest| >= 1 && IsDelim(d, rest[0])
    ensures ScanField(f, [a, b] + rest, d)
         == if FieldMin(f) <= TokenValue(a, b) <= FieldMax(f) then Some(Scan(TokenValue(a, b), rest)) else None
  {
    TwoDigitAlternatives(f, a, b);
    var t := [a, b] + rest;
    assert t[0] == a && t[1] == b && t[2] == rest[0] && t[2..] == rest;
  }

  /** A one-digit token followed by a delimiter that is not a digit scans to that digit. */
  lemma ScanOneDigit(f: Field, a: char, rest: string, d: Delim)
    requires OneCharAlt(f, a) && |rest| >= 1 && IsDelim(d, rest[0]) && !IsDigit(rest[0])
    ensures ScanField(f, [a] + rest, d) == Some(Scan(DigitVal(a), rest))
  {
    var t := [a] + rest;
    assert t[0] == a && t[1] == rest[0] && t[1..] == rest;
  }

  predicate FixedWidthFields(y: string, mo: string, d: string, h: string, mi: string, se: string) {
    && |y| == 4 && AllDigits(y)
    && |mo| == 2 && AllDigits(mo) && |d| == 2 && AllDigits(d)
    && |h| == 2 && AllDigits(h) && |mi| == 2 && AllDigits(mi) && 1 <= |se| <= 2 && AllDigits(se)
  }

  lemma TwoDigitValue(t: string)
    requires |t| == 2 && AllDigits(t)
    ensures IsDigit(t[0]) && IsDigit(t[1])
    ensures DigitsValue(t) == TokenValue(t[0], t[1])
  {
    assert IsDigit(t[0]) && IsDigit(t[1]);
    var p := t[..1];
    assert p[..0] == [] && p[0] == t[0];
    assert DigitsValue(p) == DigitVal(t[0]);
  }

  lemma SkipOneSpace(r: string, h: string)
    requires |h| == 2 && AllDigits(h) && |r| >= 2 && r[..2] == h
    ensures SkipSpaces(" " + r) == r
  {
    assert IsDigit(h[0]) && r[0] == h[0];
    assert (" " + r)[1..] == r;
  }

  lemma StepYear(y: string, rest: string, sep: char)
    requires |y| == 4 && AllDigits(y)
    ensures ParseDateTime(y + ([sep] + rest), sep) == AfterYear(DigitsValue(y), rest, sep)
  {
    var s := y + ([sep] + rest);
    assert s[..4] == y && s[4] == sep && s[5..] == rest;
  }

  /** Each two-digit step: the field's value continues the parse when in range, and ends it otherwise. */
  lemma StepMonth(yv: nat, mo: string, rest: string, sep: char)
    requires |mo| == 2 && AllDigits(mo) && !IsDigit(sep) && |rest| >= 1 && rest[0] == sep
    ensures AfterYear(yv, mo + rest, sep)
         == if 1 <= DigitsValue(mo) <= 12 then AfterMonth(yv, DigitsValue(mo), rest[1..]) else None
  {
    TwoDigitValue(mo);
    assert mo + rest == [mo[0], mo[1]] + rest;
    ScanTwoDigits(Month, mo[0], mo[1], rest, Literal(sep));
  }

  lemma StepDay(yv: nat, m: nat, d: string, rest: string)
    requires |d| == 2 && AllDigits(d) && |rest| >= 1 && IsSpace(rest[0])
    ensures AfterMonth(yv, m, d + rest)
         == if 1 <= DigitsValue(d) <= 31 then AfterDay(yv, m, DigitsValue(d), SkipSpaces(rest)) else None
  {
    TwoDigitValue(d);
    assert d + rest == [d[0], d[1]] + rest;
    ScanTwoDigits(Day, d[0], d[1], rest, Whitespace);
  }

  lemma StepHour(yv: nat, m: nat, dv: nat, h: string, rest: string)
    requires |h| == 2 && AllDigits(h) && |rest| >= 1 && rest[0] == ':'
    ensures AfterDay(yv, m, dv, h + rest)
         == if DigitsValue(h) <= 23 then AfterHour(yv, m, dv, DigitsValue(h), rest[1..]) else None
  {
    TwoDigitValue(h);
    assert h + rest == [h[0], h[1]] + rest;
    ScanTwoDigits(Hour, h[0], h[1], rest, Literal(':'));
  }

  lemma StepMinute(yv: nat, m: nat, dv: nat, hv: nat, mi: string, rest: string)
    requires |mi| == 2 && AllDigits(mi) && |rest| >= 1 && rest[0] == ':'
    ensures AfterHour(yv, m, dv, hv, mi + rest)
         == if DigitsValue(mi) <= 59 then AfterMinute(yv, m, dv, hv, DigitsValue(mi), rest[1..]) else None
  {
    TwoDigitValue(mi);
    assert mi + rest == [mi[0], mi[1]] + rest;
    ScanTwoDigits(Minute, mi[0], mi[1], rest, Literal(':'));
  }

  lemma StepSecond(yv: nat, m: nat, dv: nat, hv: nat, mv: nat, se: string)
    requires 1 <= |se| <= 2 && AllDigits(se)
    ensures var dt := DateTime(yv, m, dv, hv, mv, DigitsValue(se));
            AfterMinute(yv, m, dv, hv, mv, se) == if dt.Valid() then Some(dt) else None
  {
    if |se| == 2 {
      TwoDigitValue(se);
      TwoDigitAlternatives(Second, se[0], se[1]);
    } else {
      assert se[..0] == [] && IsDigit(se[0]);
    }
  }

  /** On fixed-width digit fields `strptime` succeeds exactly when the field
      values form a valid datetime, and then returns that datetime. The
      seconds field, last in the text, may also have a single digit. */
  lemma {:induction false} ParseFixedWidth(y: string, mo: string, d: string, h: string, mi: string, se: string, sep: char)
    requires FixedWidthFields(y, mo, d, h, mi, se)
    requires !IsDigit(sep)
    ensures var dt := DateTime(DigitsValue(y), DigitsValue(mo), DigitsValue(d),
                               DigitsValue(h), DigitsValue(mi), DigitsValue(se));
            ParseDateTime(FixedWidth(y, mo, d, h, mi, se, sep), sep) == if dt.Valid() then Some(dt) else None
  {
    var dt := DateTime(DigitsValue(y), DigitsValue(mo), DigitsValue(d),
                       DigitsValue(h), DigitsValue(mi), DigitsValue(se));
    var r5 := ":" + se;
    var r4 := mi + r5;
    var r3 := ":" + r4;
    var r2 := h + r3;
    var r1 := " " + r2;
    var r0 := d + r1;
    var rm := [sep] + r0;
    StepYear(y, mo + rm, sep);
    StepMonth(DigitsValue(y), mo, rm, sep);
    if !(1 <= dt.month <= 12) { return; }
    assert rm[1..] == r0;
    StepDay(DigitsValue(y), dt.month, d, r1);
    if !(1 <= dt.day <= 31) { return; }
    assert r2[..2] == h;
    SkipOneSpace(r2, h);
    StepHour(DigitsValue(y), dt.month, dt.day, h, r3);
    if !(dt.hour <= 23) { return; }
    assert r3[1..] == r4;
    StepMinute(DigitsValue(y), dt.month, dt.day, dt.hour, mi, r5);
    if !(dt.minute <= 59) { return; }
    assert r5[1..] == se;
    StepSecond(DigitsValue(y), dt.month, dt.day, dt.hour, dt.minute, se);
  }

  /** Each one-digit step: the digit's value always continues the parse. */
  lemma OneDigitMonth(yv: nat, mo: char, rest: string, sep: char)
    requires '1' <= mo <= '9' && !IsDigit(sep) && |rest| >= 1 && rest[0] == sep
    ensures AfterYear(yv, [mo] + rest, sep) == AfterMonth(yv, DigitVal(mo), rest[1..])
  {
    ScanOneDigit(Month, mo, rest, Literal(sep));
  }

  lemma OneDigitDay(yv: nat, m: nat, d: char, rest: string)
    requires '1' <= d <= '9' && |rest| >= 2 && rest[0] == ' ' && IsDigit(rest[1])
    ensures AfterMonth(yv, m, [d] + rest) == AfterDay(yv, m, DigitVal(d), rest[1..])
  {
    ScanOneDigit(Day, d, rest, Whitespace);
    var after := rest[1..];
    assert after[0] == rest[1] && !IsSpace(after[0]);
    assert SkipSpaces(after) == after;
    assert SkipSpaces(rest) == after;
  }

  lemma OneDigitHour(yv: nat, m: nat, dv: nat, h: char, rest: string)
    requires IsDigit(h) && |rest| >= 1 && rest[0] == ':'
    ensures AfterDay(yv, m, dv, [h] + rest) == AfterHour(yv, m, dv, DigitVal(h), rest[1..])
  {
    ScanOneDigit(Hour, h, rest, Literal(':'));
  }

  lemma OneDigitMinute(yv: nat, m: nat, dv: nat, hv: nat, mi: char, rest: string)
    requires IsDigit(mi) && |rest| >= 1 && rest[0] == ':'
    ensures AfterHour(yv, m, dv, hv, [mi] + rest) == AfterMinute(yv, m, dv, hv, DigitVal(mi), rest[1..])
  {
    ScanOneDigit(Minute, mi, rest, Literal(':'));
  }

  /** `%m`, `%d`, `%H` and `%M` also match a single digit (`%m` and `%d` one
      from 1 to 9), so a tag written without zero padding parses to the same
      datetime as its padded form, and fails exactly when that one is invalid. */
  lemma {:induction false} ParseOneDigitFields(y: string, mo: char, d: char, h: char, mi: char, se: char, sep: char)
    requires |y| == 4 && AllDigits(y) && !IsDigit(sep)
    requires '1' <= mo <= '9' && '1' <= d <= '9' && IsDigit(h) && IsDigit(mi) && IsDigit(se)
    ensures var dt := DateTime(DigitsValue(y), DigitVal(mo), DigitVal(d), DigitVal(h), DigitVal(mi), DigitVal(se));
            ParseDateTime(y + [sep, mo, sep, d, ' ', h, ':', mi, ':', se], sep) == if dt.Valid() then Some(dt) else None
  {
    var yv := DigitsValue(y);
    var r5 := [':', se];
    var r4 := [mi] + r5;
    var r3 := [':'] + r4;
    var r2 := [h] + r3;
    var r1 := [' '] + r2;
    var r0 := [d] + r1;
    var rm := [sep] + r0;
    assert y + [sep, mo, sep, d, ' ', h, ':', mi, ':', se] == y + ([sep] + ([mo] + rm));
    StepYear(y, [mo] + rm, sep);
    assert rm[1..] == r0;
    OneDigitMonth(yv, mo, rm, sep);
    assert r1[1..] == r2;
    OneDigitDay(yv, DigitVal(mo), d, r1);
    assert r3[1..] == r4;
    OneDigitHour(yv, DigitVal(mo), DigitVal(d), h, r3);
    assert r5[1..] == [se];
    OneDigitMinute(yv, DigitVal(mo), DigitVal(d), DigitVal(h), mi, r5);
    assert ScanSeconds([se]) == Some(DigitVal(se));
  }

  /** Rendering a valid datetime in the fixed layout and parsing it back gives the same datetime. */
  lemma CanonicalRoundTrip(dt: DateTime, sep: char)
    requires dt.Valid() && !IsDigit(sep)
    ensures ParseDateTime(Canonical(dt, sep), sep) == Some(dt)
  {
    var y, mo, d := Digits(dt.year, 4), Digits(dt.month, 2), Digits(dt.day, 2);
    var h, mi, se := Digits(dt.hour, 2), Digits(dt.minute, 2), Digits(dt.second, 2);
    assert Pow10(4) == 10000 && Pow10(2) == 100;
    DigitsRoundTrip(dt.year, 4);
    DigitsRoundTrip(dt.month, 2);
    DigitsRoundTrip(dt.day, 2);
    DigitsRoundTrip(dt.hour, 2);
    DigitsRoundTrip(dt.minute, 2);
    DigitsRoundTrip(dt.second, 2);
    ParseFixedWidth(y, mo, d, h, mi, se, sep);
  }

  /** The stamp text is read back by the `%Y-%m-%d %H:%M:%S` parse the
      day-first filename recognizers use: it loses nothing. */
  lemma StampTextRoundTrip(dt: DateTime)
    requires dt.Valid()
    ensures ParseDateTime(StampText(dt), '-') == Some(dt)
  {
    CanonicalRoundTrip(dt, '-');
  }
}

=== FILE: tree.dfy ===
/** The two batch loops, `process_images` (one folder) and
    `process_images_with_structure` (a folder tree mirrored into a destination
    root), reduced to their bookkeeping: which files are handled, where each
    stamped copy is written, and how the processed and error counters move.
    The directory walk, the EXIF reader, the creation-time call and the
    renderer are inputs: the walk is a sequence of records in the order
    `os.walk` / `os.listdir` yields them, and each record carries what those
    calls returned for its file. */
module TreeProcessing {
  import opened Wrappers
  import opened PyStr
  import opened Calendar
  import opened FilenameDates
  import opened Resolution
  import opened Encoding

  /** One file met by the walk: its directory relative to the source root
      (`os.path.relpath`, so `.` for the root itself), its name, what the date
      sources gave, and whether drawing and saving went through. */
  datatype FileRecord = FileRecord(relDir: string, name: string, src: Sources, renderOk: bool)

  /** The drawing parameters handed to `add_datetime_watermark`: font size,
      position name and the two margins. */
  datatype Style = Style(fontSize: int, position: string, marginX: int, marginY: int)

  /** The margins `add_datetime_watermark` uses when its caller passes none. */
  const DefaultMargin: int := 10

  /** A stamped copy: where it was written, which datetime it shows, and how
      it was drawn. */
  datatype Stamp = Stamp(path: string, when: DateTime, style: Style)

  /** What happened to one file. */
  datatype Outcome = Ignored | Stamped(stamp: Stamp) | Unresolved | RenderFailed

  /** The two counters the loops keep, and the copies written so far. */
  datatype Summary = Summary(processed: nat, errors: nat, written: seq<Stamp>)

  /** The destination folder for a relative directory: the root itself for `.`. */
  function DestFolder(destRoot: string, relDir: string): (r: string)
    ensures relDir == "." ==> r == destRoot
    ensures relDir != "." ==> EndsWith(r, relDir)
  {
    if relDir == "." then destRoot else Join(destRoot, relDir)
  }

  /** `os.path.join(dest_folder, filename)`. */
  function TreeDestPath(destRoot: string, r: FileRecord): (p: string)
    ensures EndsWith(p, r.name)
  {
    Join(DestFolder(destRoot, r.relDir), r.name)
  }

  /** The fate of a handled file once its date is known or not. */
  function Finish(date: Option<DateTime>, dest: string, style: Style, renderOk: bool): (o: Outcome)
    ensures o != Ignored
    ensures o.Stamped? <==> date.Some? && renderOk
    ensures o.Stamped? ==> o.stamp == Stamp(dest, date.value, style)
    ensures o == Unresolved <==> date.None?
  {
    match date
    case None => Unresolved
    case Some(dt) => if renderOk then Stamped(Stamp(dest, dt, style)) else RenderFailed
  }

  /** Where the flat loop writes: over the input when `overwrite` is set,
      otherwise `watermarked_<name>` in the output folder, which defaults to the
      input folder. */
  function FlatDestPath(inputFolder: string, outputFolder: Option<string>, overwrite: bool, name: string): (p: string)
    ensures overwrite ==> p == Join(inputFolder, name)
    ensures !overwrite ==> EndsWith(p, "watermarked_" + name)
    ensures !overwrite && outputFolder.Some? ==> p == Join(outputFolder.value, "watermarked_" + name)
    ensures !overwrite && outputFolder.None? ==> p == Join(inputFolder, "watermarked_" + name)
  {
    if overwrite then Join(inputFolder, name)
    else Join(outputFolder.OrElse(Some(inputFolder)).value, "watermarked_" + name)
  }

  /** The parameters of one run of either loop. The tree loop passes the
      caller's margins on to the renderer; the flat loop passes only the font
      size and the position, so the renderer's default margins apply. */
  datatype Run =
    | TreeRun(destRoot: string, treeStyle: Style)
    | FlatRun(inputFolder: string, outputFolder: Option<string>, overwrite: bool, fontSize: int, position: string)
  {
    /** The tree loop asks the name first, the flat loop the EXIF tag first. */
    function Order(): Mode
    {
      if TreeRun? then Tree else Flat
    }

    /** The drawing parameters every file of the run is rendered with. */
    function RenderStyle(): (st: Style)
      ensures FlatRun? ==> st.marginX == DefaultMargin && st.marginY == DefaultMargin
      ensures FlatRun? ==> st.fontSize == fontSize && st.position == position
      ensures TreeRun? ==> st == treeStyle
    {
      match this
      case TreeRun(_, style) => style
      case FlatRun(_, _, _, size, pos) => Style(size, pos, DefaultMargin, DefaultMargin)
    }

    function DestPath(r: FileRecord): (p: string)
      ensures EndsWith(p, r.name)
    {
      match this
      case TreeRun(root, _) => TreeDestPath(root, r)
      case FlatRun(input, output, over, _, _) =>
        var p := FlatDestPath(input, output, over, r.name);
        if over then p
        else
          assert EndsWith("watermarked_" + r.name, r.name);
          EndsWithTrans(p, "watermarked_" + r.name, r.name);
          p
    }
  }

  lemma EndsWithTrans(a: string, b: string, c: string)
    requires EndsWith(a, b) && EndsWith(b, c)
    ensures EndsWith(a, c)
  {
    assert a[|a| - |c|..] == b[|b| - |c|..];
  }

  /** One iteration of either loop: the filter, the resolution chain in the
      run's order, and the destination. */
  function OutcomeOf(run: Run, r: FileRecord): (o: Outcome)
    ensures o == Ignored <==> !IsSupported(r.name)
    ensures o.Stamped? ==> o.stamp.path == run.DestPath(r) && Some(o.stamp.when) == Resolve(run.Order(), r.name, r.src)
    ensures o.Stamped? ==> o.stamp.style == run.RenderStyle()
    ensures o == Unresolved <==> IsSupported(r.name) && Resolve(run.Order(), r.name, r.src).None?
    ensures o == RenderFailed <==> IsSupported(r.name) && Resolve(run.Order(), r.name, r.src).Some? && !r.renderOk
  {
    if !IsSupported(r.name) then Ignored
    else Finish(Resolve(run.Order(), r.name, r.src), run.DestPath(r), run.RenderStyle(), r.renderOk)
  }

  /** Counter update for one outcome: a stamped file is processed, an
      unresolved or failed one is an error, an ignored one changes nothing. */
  function Count(s: Summary, o: Outcome): (t: Summary)
    ensures o == Ignored ==> t == s
    ensures o != Ignored ==> t.processed + t.errors == s.processed + s.errors + 1
    ensures t.processed > s.processed <==> o.Stamped?
    ensures t.errors > s.errors <==> o == Unresolved || o == RenderFailed
    ensures o.Stamped? ==> t.processed == s.processed + 1 && t.errors == s.errors
    ensures (o == Unresolved || o == RenderFailed) ==> t.errors == s.errors + 1 && t.processed == s.processed
    ensures t.written == s.written + (if o.Stamped? then [o.stamp] else [])
  {
    match o
    case Ignored => s
    case Stamped(st) => Summary(s.processed + 1, s.errors, s.written + [st])
    case Unresolved | RenderFailed => Summary(s.processed, s.errors + 1, s.written)
  }

  /** Independent count: how many outcomes are not `Ignored`. */
  function Handled(outs: seq<Outcome>): nat
  {
    if |outs| == 0 then 0 else Handled(outs[..|outs| - 1]) + (if outs[|outs| - 1] == Ignored then 0 else 1)
  }

  /** The stamps among the outcomes, in order. */
  function Stamps(outs: seq<Outcome>): seq<Stamp>
  {
    if |outs| == 0 then [] else Stamps(outs[..|outs| - 1]) + (if outs[|outs| - 1].Stamped? then [outs[|outs| - 1].stamp] else [])
  }

  /** The counters after a sequence of outcomes, starting from zero. */
  function Tally(outs: seq<Outcome>): (s: Summary)
    ensures s.processed + s.errors == Handled(outs)
    ensures s.written == Stamps(outs) && |s.written| == s.processed
  {
    if |outs| == 0 then Summary(0, 0, [])
    else Count(Tally(outs[..|outs| - 1]), outs[|outs| - 1])
  }

  /** The outcomes of a walk, record by record. */
  function Outcomes(run: Run, walk: seq<FileRecord>): (outs: seq<Outcome>)
    ensures |outs| == |walk|
    ensures forall i :: 0 <= i < |walk| ==> outs[i] == OutcomeOf(run, walk[i])
  {
    seq(|walk|, i requires 0 <= i < |walk| => OutcomeOf(run, walk[i]))
  }

  /** How many records name a supported file. */
  function SupportedCount(walk: seq<FileRecord>): nat
  {
    if |walk| == 0 then 0 else SupportedCount(walk[..|walk| - 1]) + (if IsSupported(walk[|walk| - 1].name) then 1 else 0)
  }

  /** Exactly the supported files are counted, each once. */
  lemma {:induction false} HandledIsSupported(run: Run, walk: seq<FileRecord>)
    ensures Handled(Outcomes(run, walk)) == SupportedCount(walk)
  {
    if |walk| > 0 {
      var outs := Outcomes(run, walk);
      assert outs[..|outs| - 1] == Outcomes(run, walk[..|walk| - 1]);
      HandledIsSupported(run, walk[..|walk| - 1]);
    }
  }

  /** Extending the walk by one record applies that record's counter update. */
  lemma WalkStep(run: Run, walk: seq<FileRecord>, i: nat)
    requires i < |walk|
    ensures Tally(Outcomes(run, walk[..i + 1])) == Count(Tally(Outcomes(run, walk[..i])), OutcomeOf(run, walk[i]))
  {
    var longer := Outcomes(run, walk[..i + 1]);
    assert walk[..i + 1][..i] == walk[..i] && walk[..i + 1][i] == walk[i];
    assert longer[..i] == Outcomes(run, walk[..i]);
    assert longer[i] == OutcomeOf(run, walk[i]);
    assert Tally(longer) == Count(Tally(longer[..i]), longer[i]);
  }

  /** The date lookup of either loop, written as the source writes it: each
      later source is read only while no date has been found. */
  method LookUpDate(run: Run, r: FileRecord) returns (date: Option<DateTime>)
    ensures date == Resolve(run.Order(), r.name, r.src)
  {
    if run.TreeRun? {
      date := FilenameDates.FromFilename(r.name);
      if date.None? {
        date := ExifDate(r.src.exifTag);
      }
    } else {
      date := ExifDate(r.src.exifTag);
      if date.None? {
        date := FilenameDates.FromFilename(r.name);
      }
    }
    if date.None? {
      date := r.src.creationTime;
    }
  }

  /** The body of either loop for one file: the filter, the date lookup, then rendering. */
  method HandleFile(run: Run, r: FileRecord) returns (o: Outcome)
    ensures o == OutcomeOf(run, r)
  {
    if !IsSupported(r.name) {
      return Ignored;
    }
    var dest := run.DestPath(r);
    var date := LookUpDate(run, r);
    if date.None? {
      o := Unresolved;
    } else if r.renderOk {
      o := Stamped(Stamp(dest, date.value, run.RenderStyle()));
    } else {
      o := RenderFailed;
    }
  }

  /** The counter statements after one file, as the source writes them:
      `processed_count += 1` on success, `error_count += 1` otherwise. */
  method Bump(processed: nat, errors: nat, written: seq<Stamp>, o: Outcome) returns (p: nat, e: nat, w: seq<Stamp>)
    ensures Summary(p, e, w) == Count(Summary(processed, errors, written), o)
  {
    p, e, w := processed, errors, written;
    match o {
      case Ignored =>
      case Stamped(st) =>
        w := w + [st];
        p := p + 1;
      case Unresolved =>
        e := e + 1;
      case RenderFailed =>
        e := e + 1;
    }
  }

  /** The counting loop shared by both entry points. */
  method Walk(run: Run, walk: seq<FileRecord>) returns (summary: Summary)
    ensures summary == Tally(Outcomes(run, walk))
    ensures summary.processed + summary.errors == SupportedCount(walk)
  {
    var processed, errors := 0, 0;
    var written: seq<Stamp> := [];
    var i := 0;
    while i < |walk|
      invariant 0 <= i <= |walk|
      invariant Summary(processed, errors, written) == Tally(Outcomes(run, walk[..i]))
    {
      var o := HandleFile(run, walk[i]);
      WalkStep(run, walk, i);
      processed, errors, written := Bump(processed, errors, written, o);
      i := i + 1;
    }
    assert walk[..i] == walk;
    HandledIsSupported(run, walk);
    summary := Summary(processed, errors, written);
  }

  /** `process_images_with_structure`: nothing at all when the source root is
      missing; otherwise the loop over the walk with both counters. */
  method ProcessTree(sourceExists: bool, destRoot: string, style: Style, walk: seq<FileRecord>) returns (result: Option<Summary>)
    ensures result.None? <==> !sourceExists
    ensures result.Some? ==> result.value == Tally(Outcomes(TreeRun(destRoot, style), walk))
    ensures result.Some? ==> result.value.processed + result.value.errors == SupportedCount(walk)
  {
    if !sourceExists {
      return None;
    }
    var summary := Walk(TreeRun(destRoot, style), walk);
    return Some(summary);
  }

  /** `process_images`: the same counters over one folder's listing. */
  method ProcessFlat(inputFolder: string, outputFolder: Option<string>, overwrite: bool, fontSize: int, position: string,
                     files: seq<FileRecord>)
    returns (summary: Summary)
    ensures summary == Tally(Outcomes(FlatRun(inputFolder, outputFolder, overwrite, fontSize, position), files))
    ensures summary.processed + summary.errors == SupportedCount(files)
  {
    summary := Walk(FlatRun(inputFolder, outputFolder, overwrite, fontSize, position), files);
  }

  /** Tallying two stretches of a walk one after the other adds their counters
      and concatenates their stamps. */
  lemma {:induction false} TallyAppend(a: seq<Outcome>, b: seq<Outcome>)
    ensures Tally(a + b).processed == Tally(a).processed + Tally(b).processed
    ensures Tally(a + b).errors == Tally(a).errors + Tally(b).errors
    ensures Tally(a + b).written == Tally(a).written + Tally(b).written
  {
    if |b| > 0 {
      assert (a + b)[..|a + b| - 1] == a + b[..|b| - 1];
      TallyAppend(a, b[..|b| - 1]);
    } else {
      assert a + b == a;
    }
  }

  /** Files outside the supported formats leave the counters untouched, wherever they occur. */
  lemma IgnoredIsNeutral(a: seq<Outcome>, b: seq<Outcome>)
    ensures Tally(a + [Ignored] + b) == Tally(a + b)
  {
    TallyAppend(a + [Ignored], b);
    TallyAppend(a, b);
  }

  /** For a plain relative path the mirrored destination is
      `dest_root/rel/name`, and `dest_root/name` at the top level. */
  lemma MirrorPath(destRoot: string, r: FileRecord)
    requires destRoot != "" && !EndsWith(destRoot, "/")
    requires !StartsWith(r.relDir, "/") && r.relDir != "" && !EndsWith(r.relDir, "/")
    requires !StartsWith(r.name, "/")
    ensures r.relDir == "." ==> TreeDestPath(destRoot, r) == destRoot + "/" + r.name
    ensures r.relDir != "." ==> TreeDestPath(destRoot, r) == destRoot + "/" + r.relDir + "/" + r.name
  {
  }

  /** Where the tree loop writes a stamped copy: the file's relative folder
      mirrored under the destination root. */
  lemma TreeStampPath(destRoot: string, style: Style, r: FileRecord)
    requires destRoot != "" && !EndsWith(destRoot, "/")
    requires !StartsWith(r.relDir, "/") && r.relDir != "" && !EndsWith(r.relDir, "/")
    requires !StartsWith(r.name, "/")
    ensures var o := OutcomeOf(TreeRun(destRoot, style), r);
            o.Stamped? ==> o.stamp.path == if r.relDir == "." then destRoot + "/" + r.name
                                           else destRoot + "/" + r.relDir + "/" + r.name
  {
    MirrorPath(destRoot, r);
  }

  /** Where the flat loop writes a stamped copy: over the input file, or as
      `watermarked_<name>` in the output folder or, without one, the input folder. */
  lemma FlatStampPath(input: string, output: Option<string>, overwrite: bool, size: int, pos: string, r: FileRecord)
    ensures var o := OutcomeOf(FlatRun(input, output, overwrite, size, pos), r);
            o.Stamped? ==> o.stamp.path == if overwrite then Join(input, r.name)
                                           else Join(if output.Some? then output.value else input, "watermarked_" + r.name)
  {
  }

  /** Every copy a run writes is drawn with the run's parameters. */
  lemma {:induction false} StampsUseRunStyle(run: Run, walk: seq<FileRecord>)
    ensures forall k :: 0 <= k < |Stamps(Outcomes(run, walk))| ==> Stamps(Outcomes(run, walk))[k].style == run.RenderStyle()
  {
    if |walk| > 0 {
      var outs := Outcomes(run, walk);
      assert outs[..|outs| - 1] == Outcomes(run, walk[..|walk| - 1]);
      StampsUseRunStyle(run, walk[..|walk| - 1]);
    }
  }

  /** The flat loop never forwards margins: every copy it writes has the
      default 10-pixel margins, whatever the caller wanted. */
  lemma FlatUsesDefaultMargins(inputFolder: string, outputFolder: Option<string>, overwrite: bool, fontSize: int, position: string,
                               files: seq<FileRecord>)
    ensures var written := Tally(Outcomes(FlatRun(inputFolder, outputFolder, overwrite, fontSize, position), files)).written;
            forall k :: 0 <= k < |written| ==> written[k].style == Style(fontSize, position, 10, 10)
  {
    StampsUseRunStyle(FlatRun(inputFolder, outputFolder, overwrite, fontSize, position), files);
  }
}

=== FILE: tree_examples.dfy ===
/** A worked run of the tree loop over a small folder tree. */
module TreeExamples {
  import opened Wrappers
  import opened PyStr
  import opened Calendar
  import opened FilenameDates
  import opened FilenameExamples
  import opened Resolution
  import opened Encoding
  import opened TreeProcessing

  /** A name with a lower-case supported ending is supported. */
  lemma SupportedEnding(name: string, e: string)
    requires e in {".jpg", ".png"} && EndsWith(name, e)
    ensures IsSupported(name)
  {
    LowerKeepsSuffix(name, e);
    assert Lower(e) == e;
  }

  lemma NotesIgnored()
    ensures !IsSupported("notes.txt")
  {
    var s := Lower("notes.txt");
    assert s[|s| - 1] == 't';
  }

  /** With no EXIF tag and no creation time the tree mode stamps with the name's date, if any. */
  lemma NameOnly(destRoot: string, style: Style, r: FileRecord)
    requires r.src == Sources(None, None) && r.renderOk && IsSupported(r.name)
    ensures OutcomeOf(TreeRun(destRoot, style), r)
         == if FromFilename(r.name).Some? then Stamped(Stamp(TreeDestPath(destRoot, r), FromFilename(r.name).value, style)) else Unresolved
  {
  }

  function ExampleWalk(): seq<FileRecord>
  {
    var none := Sources(None, None);
    [ FileRecord(".", "IMG_20230101_123456.jpg", none, true),
      FileRecord("2024", "camera13_01-01-2024_22h16m08s163ms.jpg", none, true),
      FileRecord("2024/jan", "camera1_1-2-2024_8h5m7s.png", none, true),
      FileRecord(".", "IMG_20230101_1234.jpg", none, true),
      FileRecord("2024", "20230101_253000.jpg", none, true),
      FileRecord(".", "notes.txt", none, true) ]
  }

  lemma ExampleStamped0(destRoot: string, style: Style)
    ensures OutcomeOf(TreeRun(destRoot, style), ExampleWalk()[0]).Stamped?
  {
    var r := ExampleWalk()[0];
    SupportedEnding(r.name, ".jpg");
    ImgExample();
    NameOnly(destRoot, style, r);
  }

  lemma ExampleStamped1(destRoot: string, style: Style)
    ensures OutcomeOf(TreeRun(destRoot, style), ExampleWalk()[1]).Stamped?
  {
    var r := ExampleWalk()[1];
    SupportedEnding(r.name, ".jpg");
    CameraExample();
    NameOnly(destRoot, style, r);
  }

  lemma ExampleStamped2(destRoot: string, style: Style)
    ensures OutcomeOf(TreeRun(destRoot, style), ExampleWalk()[2]).Stamped?
  {
    var r := ExampleWalk()[2];
    SupportedEnding(r.name, ".png");
    PaddingExample();
    NameOnly(destRoot, style, r);
  }

  lemma ExampleOutcomesFailed(destRoot: string, style: Style)
    ensures OutcomeOf(TreeRun(destRoot, style), ExampleWalk()[3]) == Unresolved
    ensures OutcomeOf(TreeRun(destRoot, style), ExampleWalk()[4]) == Unresolved
    ensures OutcomeOf(TreeRun(destRoot, style), ExampleWalk()[5]) == Ignored
  {
    var w := ExampleWalk();
    SupportedEnding(w[3].name, ".jpg");
    SupportedEnding(w[4].name, ".jpg");
    ImgShortExample();
    CompactDecidesExample();
    NameOnly(destRoot, style, w[3]);
    NameOnly(destRoot, style, w[4]);
    NotesIgnored();
  }

  lemma TallyThree(o1: Outcome, o2: Outcome, o3: Outcome)
    ensures Tally([o1, o2, o3]) == Count(Count(Count(Summary(0, 0, []), o1), o2), o3)
  {
    assert [o1][..0] == [];
    assert Tally([o1]) == Count(Summary(0, 0, []), o1);
    assert [o1, o2][..1] == [o1];
    assert Tally([o1, o2]) == Count(Tally([o1]), o2);
    assert [o1, o2, o3][..2] == [o1, o2];
    assert Tally([o1, o2, o3]) == Count(Tally([o1, o2]), o3);
  }

  /** Three stamped outcomes, then two unresolved ones and an ignored one. */
  predicate ExampleShape(outs: seq<Outcome>)
  {
    && |outs| == 6 && outs[0].Stamped? && outs[1].Stamped? && outs[2].Stamped?
    && outs[3] == Unresolved && outs[4] == Unresolved && outs[5] == Ignored
  }

  lemma TallyOfShape(outs: seq<Outcome>)
    requires ExampleShape(outs)
    ensures Tally(outs).processed == 3 && Tally(outs).errors == 2
  {
    var a, b := outs[..3], outs[3..];
    assert outs == a + b;
    TallyAppend(a, b);
    assert a == [outs[0], outs[1], outs[2]];
    assert b == [outs[3], outs[4], outs[5]];
    TallyThree(outs[0], outs[1], outs[2]);
    TallyThree(outs[3], outs[4], outs[5]);
  }

  lemma ExampleOutcomes(destRoot: string, style: Style)
    ensures ExampleShape(Outcomes(TreeRun(destRoot, style), ExampleWalk()))
  {
    ExampleStamped0(destRoot, style);
    ExampleStamped1(destRoot, style);
    ExampleStamped2(destRoot, style);
    ExampleOutcomesFailed(destRoot, style);
  }

  /** Five images, three of them datable, and one other file: three processed,
      two errors, and the non-image counted nowhere. */
  lemma TreeExample(destRoot: string, style: Style)
    ensures Tally(Outcomes(TreeRun(destRoot, style), ExampleWalk())).processed == 3
    ensures Tally(Outcomes(TreeRun(destRoot, style), ExampleWalk())).errors == 2
  {
    ExampleOutcomes(destRoot, style);
    TallyOfShape(Outcomes(TreeRun(destRoot, style), ExampleWalk()));
  }
}

=== FILE: wrappers.dfy ===
/** The Some/None datatype used for every "may fail" result of the model.
    Python's `None` returns and swallowed exceptions both become `None` here. */
module Wrappers {

  datatype Option<+T> = None | Some(value: T) {

    predicate IsFailure() {
      None?
    }

    function PropagateFailure<U>(): Option<U>
      requires None?
    {
      None
    }

    function Extract(): T
      requires Some?
    {
      value
    }

    /** `this` if it holds a value, otherwise `other` (Python's `a if a is not None else b`). */
    function OrElse(other: Option<T>): (r: Option<T>)
      // What a chain of these means is stated by `Resolution.ResolveIsFirstSome`.
      ensures Some? ==> r == this
      ensures None? ==> r == other
    {
      match this
      case Some(_) => this
      case None => other
    }
  }
}
